=== FILE: README.md ===
# A Dafny model of the codecrafters grep pattern compiler and matcher

This project models the core of `grzadr/codecrafters-grep-go`. It covers three parts:

- the byte reader that both the pattern compiler and the matcher read through (`byteReader` in `internal/reader.go`);
- the match expressions, the compiler that builds them from a pattern string (`NewMatchExpression`, `NewPattern`, `Pattern.append`) and `Pattern.Match` (all in `internal/match.go`);
- the command line's own single-rune matcher, `matchLine` (`app/main.go`).

The code is modelled as written, with its surprising behaviour included:

- Go's static method promotion means a top-level `[^...]` matches what `[...]` matches.
- A top-level `$` panics in `Pattern.Last` whenever compiling reaches it, because `Last` indexes one past the end. (An earlier bad token can panic first: `NewPattern("\\.$")` panics on `\.`.) A `$` inside a set or right after `^` becomes an `AtEndExpression` with no inner expression. It compiles, and it panics only when a match reaches it: `NewPattern("^$[")` compiles to `^` around that nil `$`, followed by an empty set.
- `NewPattern` loops until the reader is `done`. It therefore compiles only patterns whose last token sets `done`: a trailing lone `\` or a trailing `[`. Every other pattern, the empty one included, panics.
- There are three sources of panics:
  - a token that is not one rune, in `NewCharacterClass`: an escape other than `\d` and `\w` (such as `\.`), or the empty token read at the end of the pattern whenever the last read did not set `done` (after a complete final token, inside an unclosed set such as `[a`, or after a trailing `^`);
  - a top-level `$`, in `Pattern.Last`;
  - the nil `$`, when matching calls it.

Go panics are modelled as `Failure` values of `Results.Result`.

Modules, one per concern:

- `Runes`: decoded input. Each rune is kept with its UTF-8 width, ASCII runes are one byte wide, and `Bytes` gives the byte length.
- `Results`: the panics and the result type.
- `Reader`: the cursor and its operations `readRune`, `test`, `readToken` and `discard`.
- `Expressions`: the expression datatype, `NewCharacterClass`, `MatchRune`, `Match` and `MatchesMin`.
- `Compiler`: `NewMatchExpression`, the set loop, `Pattern.append`, `Last` and `NewPattern`.
- `Rendering`: writes expressions back as pattern text and proves that the compiler reads that text back. This yields the whole-pattern outcomes after any written top-level pattern (`Rendering.TopLevel`): the end of the text panics, a trailing `[` or `\` compiles, and a `$` or an escape other than `\d` and `\w` panics.
- `Patterns`: `Pattern.Match`.
- `Cli`: `matchLine`.
- `Pipeline`: compiling and matching plain text end to end.

Some consequences of the code:

- `NewPattern("")` panics. It reads an empty token, and `NewCharacterClass("")` panics on it (internal/match.go:132-134).
- `Pattern.Match` only tries offset 0 of the line (internal/match.go:296-306). `matchLine`, which the program calls, searches every position, but only for one-rune patterns (app/main.go:43-65).
- There are no groups, alternation, quantifiers or backreferences, and `.` is a literal dot.

## Model

| member | source | states |
|---|---|---|
| Reader.ReadRune | internal/reader.go:28-43 | readRune peeks: it returns the next rune and its positive width and leaves input and offset as they were. At the end of input it returns the zero rune with width 0 and sets `done`. A reader already done is left unchanged. |
| Reader.Test | internal/reader.go:83-92 | test consumes the next byte exactly when it equals the argument, otherwise leaves the input as it is. It never changes the offset and sets `done` exactly when no byte is left. |
| Reader.ScanToken | internal/reader.go:50-64 | The token loop consumes a prefix of the input. The token is exactly the runes consumed, and the offset grows by exactly their byte count. |
| Reader.ReadToken | internal/reader.go:45-71 | readToken returns the consumed runes: one rune, or `\` and the next rune. A `[` followed by `^` becomes `[^`, and that `^` is consumed without being counted. The token is empty exactly when the reader was done or empty. A lone `\` comes only at the end. It sets `done` exactly on an empty read, a trailing `\` or a trailing `[`. |
| Reader.Discard | internal/reader.go:73-81 | discard skips the longest run of whole runes that fits in `n` bytes and adds exactly their bytes to the offset. It sets `done` exactly when fewer than `n` bytes remained, and a done reader is left unchanged. |
| Reader.DiscardPeeked | internal/reader.go:73-81 | Discarding the width readRune just returned consumes exactly that one rune and its width. |
| Reader.ReadRuneKeepsInvariant | internal/reader.go:28-43 | readRune keeps `done` only on exhausted input and keeps offset plus remaining bytes constant. |
| Reader.DiscardKeepsInvariant | internal/reader.go:73-81 | discard keeps `done` only on exhausted input, and what it skips moves from the remaining bytes to the offset. |
| Reader.TestKeepsInvariant | internal/reader.go:83-92 | test keeps `done` only on exhausted input. A consumed byte leaves the input without reaching the offset. |
| Reader.ReadTokenKeepsInvariant | internal/reader.go:45-71 | readToken keeps `done` only on exhausted input and counts every consumed byte in the offset, except the `^` of `[^`. |
| Expressions.NewCharacterClass | internal/match.go:123-140 | Succeeds exactly for `\d`, `\w` or a one-rune token. The class is written as that very token, and any other token panics. |
| Expressions.ClassTokenRoundTrip | internal/match.go:123-140 | Every class is compiled back from the token it is written as. |
| Expressions.CharacterClassSemantics | internal/match.go:123-144 | The compiled class of `\d` accepts Unicode numbers. The class of `\w` accepts letters, digits and `_`. The class of a one-rune token accepts exactly that rune. |
| Expressions.ClassAccepts | internal/match.go:123-144 | A class's rune test, stated by the token it is written as: `\d` accepts numbers, `\w` accepts letters, digits and `_`, and a one-rune token accepts exactly that rune. |
| Expressions.MatchRune | internal/match.go:142-214 | MatchRune panics only on a nil `$`, and an expression that holds no nil `$` never panics. |
| Expressions.AnyMatchRune | internal/match.go:176-184 | A set's rune test panics only on a nil `$` member, and never when no member holds one. |
| Expressions.MatchSet | internal/match.go:186-194 | Matching a set panics only on a nil `$` member, and never when no member holds one. |
| Expressions.Match | internal/match.go:146-252 | Match panics only on a nil `$`, and an expression that holds no nil `$` always yields a step. |
| Expressions.AnyMatchRuneFirstDecides | internal/match.go:176-184 | A set accepts a rune exactly when some member accepts it and all earlier members reject it. It rejects exactly when every member rejects, so the empty set accepts nothing. Any panic comes from a member. |
| Expressions.NoneOfMatchRuneNegates | internal/match.go:212-214 | `[^...]`'s MatchRune is the exact negation of the set it extends and panics exactly when that set does. |
| Expressions.SingleRuneMatch | internal/match.go:146-154 | A class or set matches exactly when its test accepts the next rune (the zero rune at the end). On a match it consumes exactly that rune and its width. When it rejects, nothing is consumed. |
| Expressions.NoneOfMatchesLikeAnyOf | internal/match.go:186-214 | A top-level `[^...]` matches exactly like `[...]` with the same members. A rune its own MatchRune accepts is therefore one it fails to match. |
| Expressions.MatchAdvances | internal/match.go:146-252 | Every successful Match leaves a suffix of the input, keeps offset plus remaining bytes constant, and is done only on exhausted input. |
| Expressions.AtStartNeedsOffsetZero | internal/match.go:226-232 | `^` fails without consuming once the offset is not zero. At offset zero it is the expression it wraps. |
| Expressions.AtEndNeedsExhaustedInput | internal/match.go:244-252 | `X$` matches exactly when X matches and no input is left after it. It panics exactly when X does, and it leaves the input where X left it. |
| Expressions.MatchesMin | internal/match.go:156-198 | MatchesMin is 1 for every expression, except that an anchor chain ending in the nil `$` panics. |
| Compiler.NewMatchExpression | internal/match.go:254-267 | Parsing an expression consumes a non-empty prefix of the remaining pattern. |
| Compiler.SetMembers | internal/match.go:169-171 | The set loop consumes a prefix of the remaining pattern. |
| Compiler.SetMembersStep | internal/match.go:169-171 | When the next rune is not `]`, the loop reads one member and continues with it appended, or passes that member's panic on. |
| Compiler.NewAnyOfExpression | internal/match.go:164-174 | Parsing a set consumes a prefix of the remaining pattern. |
| Compiler.NewNoneOfExpression | internal/match.go:204-210 | Parsing a negated set consumes a prefix of the remaining pattern. |
| Compiler.NewAtStartExpression | internal/match.go:220-224 | Parsing `^` and what it wraps consumes a non-empty prefix of the remaining pattern. |
| Compiler.Last | internal/match.go:292-294 | Last indexes at Len(), so it panics with that index out of range on every pattern, empty or not. |
| Compiler.Append | internal/match.go:308-316 | append panics exactly on a `$` expression, with index Len() out of range. Any other expression is placed at the end, and the earlier ones stay unchanged. |
| Compiler.Compile | internal/match.go:280-283 | NewPattern's loop keeps the expressions already collected, and none of the ones it appends is a top-level `$`. |
| Compiler.NewPattern | internal/match.go:273-286 | A compiled pattern holds no top-level `$`. |
| Compiler.CompileStep | internal/match.go:280-283 | One turn of NewPattern's loop on a non-`$` expression appends it and continues from where it stopped reading. |
| Compiler.DoneOnlyAfterBracketOrBackslash | internal/match.go:254-267 | An expression after which the reader is done used up the whole pattern, and that pattern ends in `[` or `\`. |
| Compiler.SetMembersDone | internal/match.go:164-174 | A set loop that leaves the reader done used up the pattern, and the pattern ends in `[` or `\`. |
| Compiler.CompiledPatternEndsInBracketOrBackslash | internal/match.go:280-283 | A run of NewPattern's loop that compiles, started on a reader that is not done, was reading a pattern that ends in `[` or `\`. |
| Compiler.NewPatternEndsInBracketOrBackslash | internal/match.go:273-286 | NewPattern compiles only non-empty patterns whose last rune is `[` or `\`. The empty pattern and every other pattern panic. |
| Rendering.NewMatchExpressionReadsWrite | internal/match.go:254-267 | Round trip: NewMatchExpression reads the written text of any expression that can be written back as that expression. It stops right after the text without setting `done`. |
| Rendering.AnyOfReadsWrite | internal/match.go:164-174 | Round trip for `[...]`: the members and the closing `]` are read back exactly. |
| Rendering.NoneOfReadsWrite | internal/match.go:204-210 | Round trip for `[^...]`: the members and the closing `]` are read back exactly. |
| Rendering.AtStartReadsWrite | internal/match.go:220-224 | Round trip for `^X`: the wrapped expression is read back exactly. |
| Rendering.SetMembersReadWrite | internal/match.go:169-171 | The set loop reads the written members back in order and stops right after the `]`. |
| Rendering.CompileReadsWrite | internal/match.go:280-283 | NewPattern's loop reads the written text of a pattern back as that pattern and is not done after it. |
| Rendering.PatternReadsWrite | internal/match.go:273-283 | Compiling a written pattern plus more text is compiling the more text with the pattern already collected. |
| Rendering.CompletePatternPanics | internal/match.go:273-286 | A written top-level pattern (`Rendering.TopLevel`) never compiles on its own: the final empty token panics in NewCharacterClass, and this includes the empty pattern. |
| Rendering.TrailingBracketCompiles | internal/match.go:273-286 | After any written top-level pattern (`Rendering.TopLevel`), a trailing `[` sets `done`, so the text compiles to that pattern followed by an empty set. |
| Rendering.TrailingBackslashCompiles | internal/match.go:273-286 | After any written top-level pattern (`Rendering.TopLevel`), a trailing lone `\` sets `done`, so the text compiles to that pattern followed by a literal backslash. |
| Rendering.DollarPanics | internal/match.go:308-316 | A `$` after any written top-level pattern (`Rendering.TopLevel`) makes NewPattern panic in Last, whatever text follows it. |
| Rendering.BadEscapePanics | internal/match.go:254-267 | A top-level escape other than `\d` and `\w`, such as `\.`, after any written top-level pattern (`Rendering.TopLevel`) makes NewPattern panic on that two-rune token, whatever text follows it. |
| Patterns.Run | internal/match.go:299-303 | The loop over the expressions panics only when it reaches a nil `$`, and never when no expression holds one. |
| Patterns.PatternMatch | internal/match.go:296-306 | The empty pattern matches every line. Matching panics only on a nil `$`, and never when no expression holds one. |
| Patterns.RunAppend | internal/match.go:296-306 | Matching a concatenation is matching the first part and, only if it matched, the second part from where the first stopped. Later expressions are never evaluated after a failure or panic. |
| Patterns.MismatchIsFinal | internal/match.go:299-303 | A pattern that does not match a line still does not match it after more expressions are appended. |
| Patterns.RunAdvances | internal/match.go:296-306 | A successful run of expressions leaves a suffix of the line, keeps offset plus remaining bytes constant, and is done only at the end of the line. |
| Patterns.OffsetCountsConsumption | internal/match.go:296-298 | On a reader started at the beginning of the line, the offset is zero exactly when nothing has been consumed. |
| Patterns.AtStartOnlyBeforeConsumption | internal/match.go:226-232 | Inside a pattern, `^X` fails the whole pattern once earlier expressions consumed anything. When they consumed nothing, it behaves like X. |
| Patterns.RunOfSingleRunes | internal/match.go:296-306 | A pattern of classes and sets matches exactly when each expression accepts the rune at its own position, given that none accepts the zero rune. It then consumes exactly one rune per expression. |
| Patterns.LiteralRun | internal/match.go:142-154 | Literal runes matched from any reader never panic. They match exactly when each literal equals the rune readRune returns at its position, which is the zero rune at and past the end. |
| Patterns.LiteralPrefixMatch | internal/match.go:296-306 | A pattern of literal runes never panics and matches exactly when each literal equals the rune at its position, the zero rune past the end. So a NUL literal also matches past the end. A pattern without NUL matches exactly the lines that start with its text. |
| Cli.ContainsFunc | app/main.go:50-53 | bytes.ContainsFunc holds exactly when some rune of the line satisfies the test. |
| Cli.ContainsAny | app/main.go:58-59 | bytes.ContainsAny holds exactly when some rune of the line occurs in the pattern. |
| Cli.MatchLine | app/main.go:43-65 | matchLine returns an error, with `ok` false, exactly when the pattern is not one rune. For a one-rune pattern the error is nil and `ok` holds exactly when the rune occurs in the line, so an empty line never matches. |
| Cli.ClassPatternsUnsupported | app/main.go:44-57 | `\w` and `\d` are rejected by the rune-count check, so their branches are never reached. |
| Cli.MatchLineSearchesLiteral | app/main.go:58-59 | For any one-rune pattern, NUL included, matchLine holds exactly when the literal expression `Base(Literal(ch))` matches at some position of the line. NewPattern does not build that expression from the one-rune pattern: it panics on it, or, for `[`, builds an empty set that matches nothing. |
| Pipeline.PlainTextPanics | internal/match.go:273-286 | Plain text (no `[`, `^`, `$`, `\` or NUL) is never a pattern NewPattern compiles. |
| Pipeline.PlainTextWithBackslash | internal/match.go:273-306 | Plain text plus a trailing `\` compiles to one literal per rune. The result matches exactly the lines that start with that text and a backslash. |
| Pipeline.EmptySetNeverMatches | internal/match.go:176-194 | A pattern that ends in the empty set `[]` matches no line. |
| Pipeline.PlainTextWithBracket | internal/match.go:273-286 | Plain text plus a trailing `[` compiles, to its literals and an empty set, and matches no line. |
| Pipeline.AnchoredDollarCompiles | internal/match.go:254-267 | `^$[` compiles: the `$` after `^` becomes the nil `$` inside `^`, and the trailing `[` an empty set. |
| Pipeline.AnchoredDollarPanicsWhenMatched | internal/match.go:226-232 | That compiled pattern panics on every line, because `^` at offset zero calls the nil `$`. |
| Pipeline.LoneBracketDisagreesWithMatchLine | internal/match.go:273-286 | The one-rune pattern `[` compiles to an empty set, which matches no line, while matchLine holds exactly on the lines that contain `[`. |

## Left out

- `internal/files.go` is not part of this model: file opening and line scanning are I/O.
- `main` in `app/main.go` is not modelled. It is process glue: arguments, reading stdin, exit codes.
- UTF-8 decoding is not modelled. Input is a sequence of decoded runes with their byte widths, and an ASCII rune always has width 1. Invalid UTF-8 and a pattern string that is not valid UTF-8 are not distinguished from valid text.
- The Unicode tables (`unicode.IsNumber`, `unicode.IsDigit`, `unicode.IsLetter`) are parameters of the model (`Runes.Tables`) and are not interpreted.
- The second copy of `byteReader` in internal/match.go:12-90 is not modelled. The model follows the copy in internal/reader.go, whose `readToken` and `discard` return early on a done reader.
- The panic values carry the offending token or index. Go's own panic value for a token that is not one rune is a fixed, unformatted message.
- `offset` is an unbounded natural number. Go's `int` overflow is out of reach for any input that fits in memory.
- `Pattern.Len`, `isDone` and the two reader constructors are not given rows of their own. They are `Compiler.Len`, the `done` field and `Reader.NewReader` on decoded input.
- The capacity argument `make(..., 0, len(expr))` in `NewPattern` has no effect on behaviour and is not modelled.
- Reader.Discard: whole runes only. Skipping a byte count that ends inside a multi-byte rune is not modelled, because `discard` is only ever called with the width of the rune just peeked (`Reader.DiscardPeeked`).
- Reader.Test: stated for ASCII bytes only, because `test` is only called with `]` and `^`. A byte of a multi-byte rune is never compared.
- Cli.ContainsAny: stated on decoded runes. How `bytes.ContainsAny` treats invalid UTF-8 in the line is not modelled.
- Patterns.RunOfSingleRunes: assumes no expression accepts the zero rune. `readRune` returns that rune at the end of the line, so such a pattern can also match past the end.

=== FILE: cli.dfy ===
/**
 * matchLine of app/main.go: the command line's own matcher, which does not
 * use the pattern compiler. It accepts only patterns of exactly one rune and
 * reports whether that rune occurs anywhere in the line.
 */
module Cli {
  import opened Runes
  import opened Results
  import opened Expressions
  import opened Patterns

  /** The error matchLine returns. */
  datatype MatchError = UnsupportedPattern(pattern: string)

  /** The two results of matchLine. */
  datatype Outcome = Outcome(ok: bool, err: Option<MatchError>)

  /** bytes.ContainsFunc: does some rune of the line satisfy `f`? */
  function ContainsFunc(line: seq<Unit>, f: char -> bool): (r: bool)
    ensures r <==> exists i | 0 <= i < |line| :: f(line[i].rune)
  {
    if line == [] then false
    else if f(line[0].rune) then true
    else
      var r := ContainsFunc(line[1..], f);
      assert forall i | 0 <= i < |line| - 1 :: line[1..][i] == line[i + 1];
      assert !f(line[0].rune) ==> (r <==> exists i | 0 <= i < |line| :: f(line[i].rune)) by {
        if exists i | 0 <= i < |line| :: f(line[i].rune) {
          var i :| 0 <= i < |line| && f(line[i].rune);
          if i > 0 {
            assert line[1..][i - 1] == line[i];
          }
        }
      }
      r
  }

  /** bytes.ContainsAny: does some rune of the line occur in `chars`? */
  function ContainsAny(line: seq<Unit>, chars: string): (r: bool)
    ensures r <==> exists i | 0 <= i < |line| :: line[i].rune in chars
  {
    ContainsFunc(line, r => r in chars)
  }

  /**
   * matchLine: a pattern that is not exactly one rune is unsupported; `\w`
   * and `\d` get Unicode class tests (two runes each, so the rune count
   * check rejects them first); any other pattern is looked for rune by rune.
   */
  function MatchLine(line: seq<Unit>, pattern: string, tables: Tables): (r: Outcome)
    ensures r.err.Some? <==> |pattern| != 1
    ensures r.err.Some? ==> !r.ok && r.err.value == UnsupportedPattern(pattern)
    ensures |pattern| == 1 ==> (r.ok <==> exists i | 0 <= i < |line| :: line[i].rune == pattern[0])
  {
    if |pattern| != 1 then Outcome(false, Some(UnsupportedPattern(pattern)))
    else if pattern == AlphanumericSymbol then
      Outcome(ContainsFunc(line, r => tables.isLetter(r) || tables.isDigit(r) || r == '_'), None)
    else if pattern == DecimalSymbol then
      Outcome(ContainsFunc(line, tables.isNumber), None)
    else Outcome(ContainsAny(line, pattern), None)
  }

  /** The class patterns are rejected before their branches are reached. */
  lemma ClassPatternsUnsupported(line: seq<Unit>, tables: Tables)
    ensures MatchLine(line, "\\w", tables) == Outcome(false, Some(UnsupportedPattern("\\w")))
    ensures MatchLine(line, "\\d", tables) == Outcome(false, Some(UnsupportedPattern("\\d")))
  {
  }

  /**
   * For a one-rune pattern, matchLine is Pattern.Match of the literal
   * expression `Base(Literal(ch))` tried at every position of the line: the
   * line matches exactly when that expression matches some suffix of it.
   * NewPattern does not build this expression from the one-rune pattern:
   * it panics on it, or, for `[`, builds an empty set that matches nothing.
   */
  lemma MatchLineSearchesLiteral(line: seq<Unit>, ch: char, tables: Tables)
    ensures MatchLine(line, [ch], tables).ok <==>
              exists i | 0 <= i < |line| :: PatternMatch([Base(Literal(ch))], tables, line[i..]) == Success(true)
  {
    assert Literals([ch]) == [Base(Literal(ch))];
    forall i | 0 <= i < |line|
      ensures PatternMatch([Base(Literal(ch))], tables, line[i..]) == Success(true) <==> line[i].rune == ch
    {
      LiteralPrefixMatch([ch], tables, line[i..]);
      assert RuneAt(line[i..], 0) == line[i].rune;
    }
  }
}

=== FILE: compiler.dfy ===
/**
 * The pattern compiler of internal/match.go: NewMatchExpression and the
 * constructors it calls, and NewPattern with Pattern.append, Len and Last.
 *
 * A pattern is the list of its expressions (Pattern.expressions).
 */
module Compiler {
  import opened Runes
  import opened Results
  import opened Reader
  import opened Expressions

  /** An expression read from the pattern, and the pattern reader after it. */
  datatype Parsed = Parsed(expr: Expr, after: Cursor)

  /** The members of a set read from the pattern, and the pattern reader after them. */
  datatype Members = Members(members: seq<Expr>, after: Cursor)

  /**
   * NewMatchExpression: reads a token and builds the expression it starts.
   * A successful read always consumes input, which is what ends the
   * compiler's loops.
   */
  function NewMatchExpression(c: Cursor): (r: Result<Parsed>)
    ensures r.Success? ==> SuffixOf(r.value.after.rest, c.rest) && |r.value.after.rest| < |c.rest|
    decreases |c.rest|, 0
  {
    var tok := ReadToken(c);
    var r :=
      if tok.text == AnyOfSymbol then NewAnyOfExpression(tok.after)
      else if tok.text == NoneOfSymbol then NewNoneOfExpression(tok.after)
      else if tok.text == AtStartSymbol then NewAtStartExpression(tok.after)
      else if tok.text == AtEndSymbol then Success(Parsed(AtEndNil, tok.after))
      else
        var k :- NewCharacterClass(tok.text);
        Success(Parsed(Base(k), tok.after));
    ChainProgress(c.rest, tok.after.rest, r);
    r
  }

  /** Reading a token and then the rest of an expression consumes a non-empty prefix. */
  lemma ChainProgress(a: seq<Unit>, b: seq<Unit>, r: Result<Parsed>)
    requires r.Success? ==> SuffixOf(b, a) && |b| < |a| && SuffixOf(r.value.after.rest, b)
    ensures r.Success? ==> SuffixOf(r.value.after.rest, a) && |r.value.after.rest| < |a|
  {
    if r.Success? {
      SuffixTransitive(a, b, r.value.after.rest);
    }
  }

  lemma AnyOfDispatch(c: Cursor)
    requires ReadToken(c).text == AnyOfSymbol
    ensures NewMatchExpression(c) == NewAnyOfExpression(ReadToken(c).after)
  {
  }

  lemma NoneOfDispatch(c: Cursor)
    requires ReadToken(c).text == NoneOfSymbol
    ensures NewMatchExpression(c) == NewNoneOfExpression(ReadToken(c).after)
  {
  }

  lemma AtStartDispatch(c: Cursor)
    requires ReadToken(c).text == AtStartSymbol
    ensures NewMatchExpression(c) == NewAtStartExpression(ReadToken(c).after)
  {
  }

  /**
   * The loop of NewAnyOfExpression: while the reader is not done and the
   * next byte is not `]` (which is consumed), read one more member.
   */
  function SetMembers(c: Cursor, acc: seq<Expr>): (r: Result<Members>)
    ensures r.Success? ==> SuffixOf(r.value.after.rest, c.rest)
    decreases |c.rest|, 1
  {
    if c.done then Success(Members(acc, c))
    else
      var h := Test(c, AnyNoneOfSymbolClose);
      if h.hit then Success(Members(acc, h.after))
      else
        var p :- NewMatchExpression(h.after);
        var r := SetMembers(p.after, acc + [p.expr]);
        if r.Success? then
          SuffixTransitive(c.rest, p.after.rest, r.value.after.rest);
          r
        else r
  }

  /** One turn of the set loop: a member is read when the next rune is not `]`. */
  lemma SetMembersStep(c: Cursor, acc: seq<Expr>)
    requires !c.done && c.rest != [] && c.rest[0].rune != ']'
    ensures NewMatchExpression(c).Failure? ==> SetMembers(c, acc) == Failure(NewMatchExpression(c).panic)
    ensures NewMatchExpression(c).Success? ==>
              SetMembers(c, acc) == SetMembers(NewMatchExpression(c).value.after, acc + [NewMatchExpression(c).value.expr])
  {
    assert Test(c, AnyNoneOfSymbolClose).after == c;
  }

  function NewAnyOfExpression(c: Cursor): (r: Result<Parsed>)
    ensures r.Success? ==> SuffixOf(r.value.after.rest, c.rest)
    decreases |c.rest|, 2
  {
    var m :- SetMembers(c, []);
    Success(Parsed(AnyOf(m.members), m.after))
  }

  function NewNoneOfExpression(c: Cursor): (r: Result<Parsed>)
    ensures r.Success? ==> SuffixOf(r.value.after.rest, c.rest)
    decreases |c.rest|, 2
  {
    var m :- SetMembers(c, []);
    Success(Parsed(NoneOf(m.members), m.after))
  }

  function NewAtStartExpression(c: Cursor): (r: Result<Parsed>)
    ensures r.Success? ==> SuffixOf(r.value.after.rest, c.rest) && |r.value.after.rest| < |c.rest|
    decreases |c.rest|, 2
  {
    var p :- NewMatchExpression(c);
    Success(Parsed(AtStart(p.expr), p.after))
  }

  /** Pattern.Len. */
  function Len(p: seq<Expr>): nat {
    |p|
  }

  /** Indexing a slice of expressions, which panics outside its bounds. */
  function At(p: seq<Expr>, i: int): (r: Result<Expr>)
    ensures r.Success? <==> 0 <= i < |p|
  {
    if 0 <= i < |p| then Success(p[i]) else Failure(IndexOutOfRange(i, |p|))
  }

  /**
   * Pattern.Last, which indexes at Len() rather than Len() - 1, so it panics
   * on every pattern, empty or not.
   */
  function Last(p: seq<Expr>): (r: Result<Expr>)
    ensures r.Failure? && r.panic == IndexOutOfRange(|p|, |p|)
  {
    At(p, Len(p))
  }

  /** `p.expressions[:p.Len()-1]` on a slice that is never empty at that point. */
  function DropLast(p: seq<Expr>): seq<Expr> {
    if p == [] then p else p[..|p| - 1]
  }

  /**
   * Pattern.append: an AtEndExpression is to wrap the last expression, but
   * Last panics first; any other expression goes at the end and leaves the
   * earlier ones as they were.
   */
  function Append(p: seq<Expr>, e: Expr): (r: Result<seq<Expr>>)
    ensures (e.AtEnd? || e.AtEndNil?) <==> r.Failure?
    ensures r.Success? ==> |r.value| == |p| + 1 && r.value[..|p|] == p && r.value[|p|] == e
    ensures r.Failure? ==> r.panic == IndexOutOfRange(|p|, |p|)
  {
    if e.AtEnd? || e.AtEndNil? then
      match Last(p)
      case Failure(panic) => Failure(panic)
      case Success(last) => Success(DropLast(p + [AtEnd(last)]))
    else
      Success(p + [e])
  }

  /**
   * The loop of NewPattern: read and append expressions until the reader is
   * done. The expressions already compiled are kept as they are, and since
   * Append panics on every `$`, none of the appended ones is a top-level `$`.
   */
  function Compile(c: Cursor, acc: seq<Expr>): (r: Result<seq<Expr>>)
    ensures r.Success? ==> |acc| <= |r.value| && forall i | 0 <= i < |acc| :: r.value[i] == acc[i]
    ensures r.Success? ==> forall i | |acc| <= i < |r.value| :: !r.value[i].AtEnd? && !r.value[i].AtEndNil?
    decreases |c.rest|
  {
    if c.done then Success(acc)
    else
      var p :- NewMatchExpression(c);
      var acc' :- Append(acc, p.expr);
      Compile(p.after, acc')
  }

  /** One turn of NewPattern's loop on an expression Append keeps. */
  lemma CompileStep(c: Cursor, acc: seq<Expr>)
    requires !c.done && NewMatchExpression(c).Success?
    requires !NewMatchExpression(c).value.expr.AtEnd? && !NewMatchExpression(c).value.expr.AtEndNil?
    ensures Compile(c, acc) == Compile(NewMatchExpression(c).value.after, acc + [NewMatchExpression(c).value.expr])
  {
    var e := NewMatchExpression(c).value.expr;
    assert Append(acc, e) == Success(acc + [e]);
  }

  /** NewPattern: a compiled pattern holds no top-level `$`. */
  function NewPattern(s: string): (r: Result<seq<Expr>>)
    ensures r.Success? ==> forall i | 0 <= i < |r.value| :: !r.value[i].AtEnd? && !r.value[i].AtEndNil?
  {
    Compile(NewReader(Encode(s)), [])
  }

  /** The last rune of a non-empty input is `[` or `\`. */
  predicate EndsInBracketOrBackslash(s: seq<Unit>) {
    s != [] && s[|s| - 1].rune in {'[', '\\'}
  }

  lemma SuffixKeepsEnd(a: seq<Unit>, b: seq<Unit>)
    requires SuffixOf(b, a) && EndsInBracketOrBackslash(b)
    ensures EndsInBracketOrBackslash(a)
  {
    assert a[|a| - 1] == a[|a| - |b|..][|b| - 1];
  }

  /**
   * Only two reads set `done` while an expression is compiled without a
   * panic: a lone `\` at the end, and a `[` at the end whose test for `^`
   * finds nothing. Either way the pattern read ends in that rune.
   */
  lemma {:induction false} DoneOnlyAfterBracketOrBackslash(c: Cursor)
    requires !c.done
    ensures NewMatchExpression(c).Success? && NewMatchExpression(c).value.after.done ==>
              EndsInBracketOrBackslash(c.rest) && NewMatchExpression(c).value.after.rest == []
    decreases |c.rest|, 1
  {
    var tok := ReadToken(c);
    var r := NewMatchExpression(c);
    if r.Success? && r.value.after.done {
      if tok.text == AnyOfSymbol || tok.text == NoneOfSymbol {
        SetTokenDone(c, tok);
      } else if tok.text == AtStartSymbol {
        AtStartTokenDone(c, tok);
      } else {
        ClassTokenDone(c, tok);
      }
    }
  }

  lemma ClassTokenDone(c: Cursor, tok: Token)
    requires tok == ReadToken(c)
    requires tok.text != AnyOfSymbol && tok.text != NoneOfSymbol && tok.text != AtStartSymbol
    requires NewMatchExpression(c).Success? && NewMatchExpression(c).value.after.done
    ensures EndsInBracketOrBackslash(c.rest) && NewMatchExpression(c).value.after.rest == []
  {
    assert NewMatchExpression(c).value.after == tok.after;
    TokenRunes(c, tok);
  }

  lemma AtStartTokenDone(c: Cursor, tok: Token)
    requires !c.done && tok == ReadToken(c) && tok.text == AtStartSymbol
    requires NewMatchExpression(c).Success? && NewMatchExpression(c).value.after.done
    ensures EndsInBracketOrBackslash(c.rest) && NewMatchExpression(c).value.after.rest == []
    decreases |c.rest|, 0
  {
    AtStartDispatch(c);
    DoneOnlyAfterBracketOrBackslash(tok.after);
    SuffixKeepsEnd(c.rest, tok.after.rest);
  }

  /** A token read to the end of the input is the whole input. */
  lemma TokenRunes(c: Cursor, tok: Token)
    requires tok == ReadToken(c) && tok.after.rest == []
    ensures RunesOf(c.rest) == tok.text
  {
    assert Consumed(c, tok.after) == c.rest;
  }

  lemma SetTokenDone(c: Cursor, tok: Token)
    requires !c.done && tok == ReadToken(c)
    requires tok.text == AnyOfSymbol || tok.text == NoneOfSymbol
    requires NewMatchExpression(c).Success? && NewMatchExpression(c).value.after.done
    ensures EndsInBracketOrBackslash(c.rest) && NewMatchExpression(c).value.after.rest == []
    decreases |c.rest|, 0
  {
    if tok.after.done {
      TokenRunes(c, tok);
      return;
    }
    var m := SetMembers(tok.after, []);
    if tok.text == AnyOfSymbol {
      AnyOfDispatch(c);
    } else {
      NoneOfDispatch(c);
    }
    assert m.Success? && m.value.after == NewMatchExpression(c).value.after;
    SetMembersDone(tok.after, []);
    SuffixKeepsEnd(c.rest, tok.after.rest);
  }

  lemma {:induction false} SetMembersDone(c: Cursor, acc: seq<Expr>)
    requires !c.done
    ensures SetMembers(c, acc).Success? && SetMembers(c, acc).value.after.done ==>
              EndsInBracketOrBackslash(c.rest) && SetMembers(c, acc).value.after.rest == []
    decreases |c.rest|, 2
  {
    var h := Test(c, AnyNoneOfSymbolClose);
    if SetMembers(c, acc).Success? && SetMembers(c, acc).value.after.done && !h.hit {
      var p := NewMatchExpression(h.after).value;
      if p.after.done {
        DoneOnlyAfterBracketOrBackslash(h.after);
      } else {
        SetMembersDone(p.after, acc + [p.expr]);
        SuffixKeepsEnd(c.rest, p.after.rest);
      }
    }
  }

  /**
   * NewPattern reads expressions until a read sets `done`, and the read
   * after a complete expression that leaves the reader at the end hits the
   * end of input and panics on the empty token. So every pattern that
   * compiles ends in `[` or `\` -- in particular the empty pattern panics.
   */
  lemma {:induction false} CompiledPatternEndsInBracketOrBackslash(c: Cursor, acc: seq<Expr>)
    requires !c.done
    ensures Compile(c, acc).Success? ==> EndsInBracketOrBackslash(c.rest)
    decreases |c.rest|
  {
    if Compile(c, acc).Success? {
      var p := NewMatchExpression(c).value;
      var acc' := Append(acc, p.expr).value;
      if p.after.done {
        DoneOnlyAfterBracketOrBackslash(c);
      } else {
        CompiledPatternEndsInBracketOrBackslash(p.after, acc');
        SuffixKeepsEnd(c.rest, p.after.rest);
      }
    }
  }

  lemma NewPatternEndsInBracketOrBackslash(s: string)
    ensures NewPattern(s).Success? ==> s != [] && s[|s| - 1] in {'[', '\\'}
  {
    CompiledPatternEndsInBracketOrBackslash(NewReader(Encode(s)), []);
  }
}

=== FILE: expressions.dfy ===
/**
 * The match expressions of internal/match.go and how each one matches a
 * single rune (MatchRune) and the reader (Match).
 *
 * Go resolves the embedded methods statically, which this module follows:
 * NoneOfExpression overrides only MatchRune, so its Match is the one of the
 * embedded AnyOfExpression and uses the non-negated test; AtStartExpression
 * and AtEndExpression take MatchRune and MatchesMin from the expression they
 * wrap; and the bare `$` the compiler produces wraps a nil expression, so
 * every method call on it panics.
 */
module Expressions {
  import opened Runes
  import opened Results
  import opened Reader

  const DecimalSymbol: string := "\\d"
  const AlphanumericSymbol: string := "\\w"
  const AnyOfSymbol: string := "["
  const NoneOfSymbol: string := "[^"
  const AnyNoneOfSymbolClose: AsciiByte := ']'
  const AtStartSymbol: string := "^"
  const AtEndSymbol: string := "$"

  /** The rune tests a BaseMatchExpression can hold. */
  datatype Class = Number | Word | Literal(rune: char)

  datatype Expr =
    | Base(kind: Class)
    | AnyOf(members: seq<Expr>)
    | NoneOf(members: seq<Expr>)
    | AtStart(inner: Expr)
    | AtEnd(inner: Expr)
      /** AtEndExpression{} as NewMatchExpression returns it for `$`: its expression is nil. */
    | AtEndNil

  /** The token each class is written as. */
  function ClassToken(k: Class): string {
    match k
    case Number => DecimalSymbol
    case Word => AlphanumericSymbol
    case Literal(r) => [r]
  }

  /**
   * NewCharacterClass: `\d` and `\w` name the two classes, any other token
   * must be a single rune and stands for itself; anything else panics.
   */
  function NewCharacterClass(t: string): (r: Result<Class>)
    ensures r.Success? <==> t == DecimalSymbol || t == AlphanumericSymbol || |t| == 1
    ensures r.Success? ==> ClassToken(r.value) == t
    ensures r.Failure? ==> r.panic == NotSingleRune(t)
  {
    if t == DecimalSymbol then Success(Number)
    else if t == AlphanumericSymbol then Success(Word)
    else if |t| != 1 then Failure(NotSingleRune(t))
    else Success(Literal(t[0]))
  }

  /** Every class is compiled back from the token it is written as. */
  lemma ClassTokenRoundTrip(k: Class)
    ensures NewCharacterClass(ClassToken(k)) == Success(k)
  {
  }

  /**
   * BaseMatchExpression.MatchRune, stated by the token the class is
   * written as: `\d` tests for a number, `\w` for a letter, a digit or `_`,
   * and a one-rune token for that very rune.
   */
  function ClassAccepts(k: Class, tables: Tables, r: char): (b: bool)
    ensures ClassToken(k) == DecimalSymbol ==> (b <==> tables.isNumber(r))
    ensures ClassToken(k) == AlphanumericSymbol ==> (b <==> tables.isDigit(r) || tables.isLetter(r) || r == '_')
    ensures |ClassToken(k)| == 1 ==> (b <==> ClassToken(k) == [r])
  {
    match k
    case Number => tables.isNumber(r)
    case Word => tables.isDigit(r) || tables.isLetter(r) || r == '_'
    case Literal(c) => c == r
  }

  /** The runes the class compiled from a token accepts, stated on the token. */
  lemma CharacterClassSemantics(t: string, tables: Tables, r: char)
    requires NewCharacterClass(t).Success?
    ensures ClassAccepts(NewCharacterClass(t).value, tables, r) <==>
              || (t == "\\d" && tables.isNumber(r))
              || (t == "\\w" && (tables.isLetter(r) || tables.isDigit(r) || r == '_'))
              || (|t| == 1 && r == t[0])
  {
  }

  /**
   * The expressions that hold no nil `$`: the only expression whose methods
   * panic when called.
   */
  predicate NilFree(e: Expr)
    decreases e
  {
    match e
    case Base(_) => true
    case AnyOf(ms) => forall i | 0 <= i < |ms| :: NilFree(ms[i])
    case NoneOf(ms) => forall i | 0 <= i < |ms| :: NilFree(ms[i])
    case AtStart(inner) => NilFree(inner)
    case AtEnd(inner) => NilFree(inner)
    case AtEndNil => false
  }

  /**
   * MatchRune of each expression kind. Its only panic is a call on the nil
   * `$`, so an expression without one never panics.
   */
  function MatchRune(e: Expr, tables: Tables, r: char): (res: Result<bool>)
    ensures res.Failure? ==> res.panic == NilExpression
    ensures NilFree(e) ==> res.Success?
    decreases e
  {
    match e
    case Base(k) => Success(ClassAccepts(k, tables, r))
    case AnyOf(ms) => AnyMatchRune(ms, tables, r)
    case NoneOf(ms) =>
      var hit :- AnyMatchRune(ms, tables, r);
      Success(!hit)
    case AtStart(inner) => MatchRune(inner, tables, r)
    case AtEnd(inner) => MatchRune(inner, tables, r)
    case AtEndNil => Failure(NilExpression)
  }

  /** AnyOfExpression.MatchRune: the members in order, stopping at the first that accepts. */
  function AnyMatchRune(ms: seq<Expr>, tables: Tables, r: char): (res: Result<bool>)
    ensures res.Failure? ==> res.panic == NilExpression
    ensures (forall i | 0 <= i < |ms| :: NilFree(ms[i])) ==> res.Success?
    decreases ms
  {
    if ms == [] then Success(false)
    else
      var hit :- MatchRune(ms[0], tables, r);
      if hit then Success(true)
      else
        assert (forall i | 0 <= i < |ms| :: NilFree(ms[i])) ==> forall i | 0 <= i < |ms[1..]| :: NilFree(ms[1..][i]) by {
          assert forall i | 0 <= i < |ms[1..]| :: ms[1..][i] == ms[i + 1];
        }
        AnyMatchRune(ms[1..], tables, r)
  }

  /**
   * A set accepts a rune exactly when some member accepts it and every
   * member before that one rejects it; it rejects it exactly when every
   * member rejects it; otherwise a member's panic is the set's panic.
   */
  lemma {:induction false} AnyMatchRuneFirstDecides(ms: seq<Expr>, tables: Tables, r: char)
    ensures AnyMatchRune(ms, tables, r) == Success(true) <==>
              exists i | 0 <= i < |ms| :: MatchRune(ms[i], tables, r) == Success(true)
                && forall j | 0 <= j < i :: MatchRune(ms[j], tables, r) == Success(false)
    ensures AnyMatchRune(ms, tables, r) == Success(false) <==>
              forall i | 0 <= i < |ms| :: MatchRune(ms[i], tables, r) == Success(false)
    ensures AnyMatchRune(ms, tables, r).Failure? ==>
              exists i | 0 <= i < |ms| :: MatchRune(ms[i], tables, r).Failure?
  {
    AnyAcceptsAtFirstAccepting(ms, tables, r);
    AnyRejectsWhenAllReject(ms, tables, r);
    AnyPanicsInMember(ms, tables, r);
  }

  lemma {:induction false} AnyAcceptsAtFirstAccepting(ms: seq<Expr>, tables: Tables, r: char)
    ensures AnyMatchRune(ms, tables, r) == Success(true) <==>
              exists i | 0 <= i < |ms| :: MatchRune(ms[i], tables, r) == Success(true)
                && forall j | 0 <= j < i :: MatchRune(ms[j], tables, r) == Success(false)
  {
    if ms != [] {
      AnyAcceptsAtFirstAccepting(ms[1..], tables, r);
      var head := MatchRune(ms[0], tables, r);
      if head == Success(false) {
        if AnyMatchRune(ms, tables, r) == Success(true) {
          var i :| 0 <= i < |ms[1..]| && MatchRune(ms[1..][i], tables, r) == Success(true)
                   && forall j | 0 <= j < i :: MatchRune(ms[1..][j], tables, r) == Success(false);
          assert MatchRune(ms[i + 1], tables, r) == Success(true);
          forall j | 0 <= j < i + 1
            ensures MatchRune(ms[j], tables, r) == Success(false)
          {
            if j > 0 {
              assert MatchRune(ms[1..][j - 1], tables, r) == Success(false);
            }
          }
        }
        if exists i | 0 <= i < |ms| :: MatchRune(ms[i], tables, r) == Success(true)
             && forall j | 0 <= j < i :: MatchRune(ms[j], tables, r) == Success(false) {
          var i :| 0 <= i < |ms| && MatchRune(ms[i], tables, r) == Success(true)
                   && forall j | 0 <= j < i :: MatchRune(ms[j], tables, r) == Success(false);
          assert i > 0;
          assert MatchRune(ms[1..][i - 1], tables, r) == Success(true);
          forall j | 0 <= j < i - 1
            ensures MatchRune(ms[1..][j], tables, r) == Success(false)
          {
            assert MatchRune(ms[j + 1], tables, r) == Success(false);
          }
        }
      } else if head == Success(true) {
        assert MatchRune(ms[0], tables, r) == Success(true);
      }
    }
  }

  lemma {:induction false} AnyRejectsWhenAllReject(ms: seq<Expr>, tables: Tables, r: char)
    ensures AnyMatchRune(ms, tables, r) == Success(false) <==>
              forall i | 0 <= i < |ms| :: MatchRune(ms[i], tables, r) == Success(false)
  {
    if ms != [] {
      AnyRejectsWhenAllReject(ms[1..], tables, r);
      assert forall i | 0 <= i < |ms[1..]| :: ms[1..][i] == ms[i + 1];
      if MatchRune(ms[0], tables, r) != Success(false) {
        assert !(forall i | 0 <= i < |ms| :: MatchRune(ms[i], tables, r) == Success(false));
      }
    }
  }

  lemma {:induction false} AnyPanicsInMember(ms: seq<Expr>, tables: Tables, r: char)
    ensures AnyMatchRune(ms, tables, r).Failure? ==>
              exists i | 0 <= i < |ms| :: MatchRune(ms[i], tables, r).Failure?
  {
    if ms != [] && AnyMatchRune(ms, tables, r).Failure? && !MatchRune(ms[0], tables, r).Failure? {
      AnyPanicsInMember(ms[1..], tables, r);
      var i :| 0 <= i < |ms[1..]| && MatchRune(ms[1..][i], tables, r).Failure?;
      assert MatchRune(ms[i + 1], tables, r).Failure?;
    }
  }

  /** NoneOfExpression.MatchRune is the exact negation of the set it extends. */
  lemma NoneOfMatchRuneNegates(ms: seq<Expr>, tables: Tables, r: char)
    ensures MatchRune(NoneOf(ms), tables, r).Success? <==> MatchRune(AnyOf(ms), tables, r).Success?
    ensures MatchRune(NoneOf(ms), tables, r).Success? ==>
              MatchRune(NoneOf(ms), tables, r).value == !MatchRune(AnyOf(ms), tables, r).value
  {
  }

  /** The result of Match: whether the expression matched, and the reader afterwards. */
  datatype Step = Step(matched: bool, after: Cursor)

  /**
   * The shared body of the class and set Match methods: peek at the next
   * rune and, if it is accepted, discard its width.
   */
  function Take(p: Peek, accepted: bool): Step {
    if accepted then Step(true, Discard(p.after, p.width)) else Step(false, p.after)
  }

  /**
   * AnyOfExpression.Match, which NoneOfExpression inherits unchanged: it
   * panics only on a nil `$` member.
   */
  function MatchSet(ms: seq<Expr>, tables: Tables, c: Cursor): (r: Result<Step>)
    ensures r.Failure? ==> r.panic == NilExpression
    ensures (forall i | 0 <= i < |ms| :: NilFree(ms[i])) ==> r.Success?
  {
    var p := ReadRune(c);
    var accepted :- AnyMatchRune(ms, tables, p.rune);
    Success(Take(p, accepted))
  }

  /**
   * Match of each expression kind. Its only panic is a call on the nil `$`,
   * so an expression without one always yields a step.
   */
  function Match(e: Expr, tables: Tables, c: Cursor): (r: Result<Step>)
    ensures r.Failure? ==> r.panic == NilExpression
    ensures NilFree(e) ==> r.Success?
    decreases e
  {
    match e
    case Base(k) =>
      var p := ReadRune(c);
      Success(Take(p, ClassAccepts(k, tables, p.rune)))
    case AnyOf(ms) => MatchSet(ms, tables, c)
    case NoneOf(ms) => MatchSet(ms, tables, c)
    case AtStart(inner) =>
      if c.offset != 0 then Success(Step(false, c)) else Match(inner, tables, c)
    case AtEnd(inner) =>
      var s :- Match(inner, tables, c);
      if !s.matched then Success(s)
      else
        var p := ReadRune(s.after);
        Success(Step(p.width == 0, p.after))
    case AtEndNil => Failure(NilExpression)
  }

  /** The expressions that consume at most one rune: classes and sets. */
  predicate SingleRune(e: Expr) {
    e.Base? || e.AnyOf? || e.NoneOf?
  }

  /**
   * The rune test Match applies for a class or set: for a `[^...]` set it
   * is the test of the set it extends, not the negated one.
   */
  function TopRune(e: Expr, tables: Tables, r: char): Result<bool>
    requires SingleRune(e)
  {
    if e.Base? then Success(ClassAccepts(e.kind, tables, r)) else AnyMatchRune(e.members, tables, r)
  }

  /**
   * The rune readRune returns at position i of the input: the rune there, or
   * the zero rune at and past the end, where the reader stays done.
   */
  function RuneAt(input: seq<Unit>, i: nat): char {
    if i < |input| then input[i].rune else '\0'
  }

  /** The rune a reader would peek at: the next one, or the zero rune at the end. */
  function NextRune(c: Cursor): char {
    RuneAt(c.rest, 0)
  }

  /**
   * A class or set matches when its test accepts the next rune, consuming
   * exactly that rune and its width; when the test rejects, nothing is
   * consumed. At the end of input the test sees the zero rune and consumes
   * nothing either way.
   */
  lemma SingleRuneMatch(e: Expr, tables: Tables, c: Cursor)
    requires SingleRune(e) && c.Valid()
    ensures Match(e, tables, c).Failure? <==> TopRune(e, tables, NextRune(c)).Failure?
    ensures Match(e, tables, c).Success? ==>
              (Match(e, tables, c).value.matched <==> TopRune(e, tables, NextRune(c)) == Success(true))
    ensures Match(e, tables, c).Success? && Match(e, tables, c).value.matched && c.rest != [] ==>
              Match(e, tables, c).value.after == Cursor(c.rest[1..], c.offset + c.rest[0].width, false)
    ensures Match(e, tables, c).Success? && (!Match(e, tables, c).value.matched || c.rest == []) ==>
              Match(e, tables, c).value.after.rest == c.rest
              && Match(e, tables, c).value.after.offset == c.offset
  {
    if c.rest != [] {
      DiscardPeeked(c);
    }
  }

  /**
   * A top-level `[^...]` matches exactly like `[...]` with the same members,
   * although its MatchRune is the negation of theirs.
   */
  lemma NoneOfMatchesLikeAnyOf(ms: seq<Expr>, tables: Tables, c: Cursor)
    ensures Match(NoneOf(ms), tables, c) == Match(AnyOf(ms), tables, c)
    ensures MatchRune(NoneOf(ms), tables, NextRune(c)) == Success(true) && c.Valid() ==>
              Match(NoneOf(ms), tables, c).Success? && !Match(NoneOf(ms), tables, c).value.matched
  {
  }

  /**
   * What a successful Match leaves: an unconsumed suffix of the input, an
   * offset that counts exactly the bytes consumed, and a reader that is done
   * only at the end of input.
   */
  predicate Advanced(c: Cursor, d: Cursor) {
    && SuffixOf(d.rest, c.rest)
    && d.offset + Bytes(d.rest) == c.offset + Bytes(c.rest)
    && d.Valid()
  }

  lemma AdvancedTransitive(a: Cursor, b: Cursor, c: Cursor)
    requires Advanced(a, b) && Advanced(b, c)
    ensures Advanced(a, c)
  {
    SuffixTransitive(a.rest, b.rest, c.rest);
  }

  lemma {:induction false} MatchAdvances(e: Expr, tables: Tables, c: Cursor)
    requires c.Valid()
    ensures Match(e, tables, c).Success? ==> Advanced(c, Match(e, tables, c).value.after)
    decreases e
  {
    match e
    case Base(_) =>
      SingleRuneAdvances(e, tables, c);
    case AnyOf(_) =>
      SingleRuneAdvances(e, tables, c);
    case NoneOf(_) =>
      SingleRuneAdvances(e, tables, c);
    case AtStart(inner) =>
      MatchAdvances(inner, tables, c);
    case AtEnd(inner) =>
      MatchAdvances(inner, tables, c);
      if Match(inner, tables, c).Success? {
        var s := Match(inner, tables, c).value;
        ReadRuneKeepsInvariant(s.after);
        AdvancedTransitive(c, s.after, ReadRune(s.after).after);
      }
    case AtEndNil =>
  }

  lemma SingleRuneAdvances(e: Expr, tables: Tables, c: Cursor)
    requires SingleRune(e) && c.Valid()
    ensures Match(e, tables, c).Success? ==> Advanced(c, Match(e, tables, c).value.after)
  {
    SingleRuneMatch(e, tables, c);
    if c.rest != [] {
      assert c.rest == [c.rest[0]] + c.rest[1..];
      BytesAppend([c.rest[0]], c.rest[1..]);
      assert Bytes([c.rest[0]]) == c.rest[0].width + Bytes([]);
    }
  }

  /**
   * `^` refuses, consuming nothing, once the reader has counted any byte;
   * at offset zero it matches exactly as the expression it wraps.
   */
  lemma AtStartNeedsOffsetZero(inner: Expr, tables: Tables, c: Cursor)
    ensures c.offset != 0 ==> Match(AtStart(inner), tables, c) == Success(Step(false, c))
    ensures c.offset == 0 ==> Match(AtStart(inner), tables, c) == Match(inner, tables, c)
  {
  }

  /**
   * `$` wrapped around an expression matches exactly when that expression
   * matches and no input remains after it; when the inner expression
   * matched but input remains, what it consumed stays consumed.
   */
  lemma AtEndNeedsExhaustedInput(inner: Expr, tables: Tables, c: Cursor)
    requires c.Valid()
    ensures Match(AtEnd(inner), tables, c).Failure? <==> Match(inner, tables, c).Failure?
    ensures Match(AtEnd(inner), tables, c).Success? ==>
              (Match(AtEnd(inner), tables, c).value.matched <==>
                 Match(inner, tables, c).value.matched && Match(inner, tables, c).value.after.rest == [])
    ensures Match(AtEnd(inner), tables, c).Success? ==>
              Match(AtEnd(inner), tables, c).value.after.rest == Match(inner, tables, c).value.after.rest
  {
    var m := Match(inner, tables, c);
    var r := Match(AtEnd(inner), tables, c);
    if m.Failure? {
      assert r == Failure(m.panic);
    } else if !m.value.matched {
      assert r == m;
    } else {
      MatchAdvances(inner, tables, c);
      var p := ReadRune(m.value.after);
      assert p.width == 0 <==> m.value.after.rest == [];
      assert r == Success(Step(p.width == 0, p.after));
    }
  }

  /** MatchesMin of each expression kind. */
  function MatchesMin(e: Expr): (r: Result<nat>)
    ensures r.Success? ==> r.value == 1
    ensures r.Failure? <==> NilAnchored(e)
  {
    match e
    case Base(_) => Success(1)
    case AnyOf(_) => Success(1)
    case NoneOf(_) => Success(1)
    case AtStart(inner) => MatchesMin(inner)
    case AtEnd(inner) => MatchesMin(inner)
    case AtEndNil => Failure(NilExpression)
  }

  /** The chain of anchors around the expression ends in a bare `$`. */
  predicate NilAnchored(e: Expr) {
    match e
    case AtStart(inner) => NilAnchored(inner)
    case AtEnd(inner) => NilAnchored(inner)
    case AtEndNil => true
    case _ => false
  }
}

=== FILE: patterns.dfy ===
/**
 * Pattern.Match of internal/match.go: the compiled expressions are matched
 * in order against one reader that starts at the beginning of the line,
 * and the first expression that does not match ends the match.
 */
module Patterns {
  import opened Runes
  import opened Results
  import opened Reader
  import opened Expressions

  /**
   * The loop of Pattern.Match, from a given reader: the step of the first
   * expression that does not match, or a matched step with the reader after
   * the last expression. It panics only when it reaches a nil `$`.
   */
  function Run(es: seq<Expr>, tables: Tables, c: Cursor): (r: Result<Step>)
    ensures r.Failure? ==> r.panic == NilExpression
    ensures (forall i | 0 <= i < |es| :: NilFree(es[i])) ==> r.Success?
    decreases |es|
  {
    if es == [] then Success(Step(true, c))
    else
      var s :- Match(es[0], tables, c);
      if !s.matched then Success(s)
      else
        var r := Run(es[1..], tables, s.after);
        assert (forall i | 0 <= i < |es| :: NilFree(es[i])) ==> forall i | 0 <= i < |es[1..]| :: NilFree(es[1..][i]) by {
          assert forall i | 0 <= i < |es[1..]| :: es[1..][i] == es[i + 1];
        }
        r
  }

  /**
   * Pattern.Match: does the line start with text the expressions accept?
   * The empty pattern matches every line, and a pattern without a nil `$`
   * never panics.
   */
  function PatternMatch(p: seq<Expr>, tables: Tables, line: seq<Unit>): (r: Result<bool>)
    ensures p == [] ==> r == Success(true)
    ensures r.Failure? ==> r.panic == NilExpression
    ensures (forall i | 0 <= i < |p| :: NilFree(p[i])) ==> r.Success?
  {
    var s :- Run(p, tables, NewReader(line));
    Success(s.matched)
  }

  /**
   * Matching a concatenation is matching the first part and, only when it
   * matched, the second part from where the first stopped; once an
   * expression fails or panics, the later ones are never evaluated.
   */
  lemma {:induction false} RunAppend(a: seq<Expr>, b: seq<Expr>, tables: Tables, c: Cursor)
    ensures Run(a, tables, c).Failure? ==> Run(a + b, tables, c) == Run(a, tables, c)
    ensures Run(a, tables, c).Success? && !Run(a, tables, c).value.matched ==>
              Run(a + b, tables, c) == Run(a, tables, c)
    ensures Run(a, tables, c).Success? && Run(a, tables, c).value.matched ==>
              Run(a + b, tables, c) == Run(b, tables, Run(a, tables, c).value.after)
    decreases |a|
  {
    if a == [] {
      assert a + b == b;
    } else {
      assert (a + b)[0] == a[0];
      assert (a + b)[1..] == a[1..] + b;
      var m := Match(a[0], tables, c);
      if m.Success? && m.value.matched {
        RunAppend(a[1..], b, tables, m.value.after);
      }
    }
  }

  /** A pattern that has stopped matching stays stopped, whatever follows it. */
  lemma MismatchIsFinal(a: seq<Expr>, b: seq<Expr>, tables: Tables, line: seq<Unit>)
    requires PatternMatch(a, tables, line) == Success(false)
    ensures PatternMatch(a + b, tables, line) == Success(false)
  {
    RunAppend(a, b, tables, NewReader(line));
  }

  /** A successful run moves the reader forward and keeps its offset in step with the input. */
  lemma {:induction false} RunAdvances(es: seq<Expr>, tables: Tables, c: Cursor)
    requires c.Valid()
    ensures Run(es, tables, c).Success? ==> Advanced(c, Run(es, tables, c).value.after)
    decreases |es|
  {
    if es == [] {
      assert c.rest[|c.rest| - |c.rest|..] == c.rest;
    } else {
      MatchAdvances(es[0], tables, c);
      var m := Match(es[0], tables, c);
      if m.Success? && m.value.matched {
        RunAdvances(es[1..], tables, m.value.after);
        if Run(es, tables, c).Success? {
          AdvancedTransitive(c, m.value.after, Run(es[1..], tables, m.value.after).value.after);
        }
      }
    }
  }

  /** Reading at least one rune of a line moves the offset off zero. */
  lemma OffsetCountsConsumption(line: seq<Unit>, d: Cursor)
    requires Advanced(NewReader(line), d)
    ensures d.offset == 0 <==> d.rest == line
  {
    var k := |line| - |d.rest|;
    assert line == line[..k] + d.rest;
    BytesAppend(line[..k], d.rest);
    BytesAtLeastLength(line[..k]);
  }

  /**
   * `^` inside a pattern matches only when the expressions before it have
   * consumed nothing: otherwise the offset is no longer zero and the whole
   * pattern fails.
   */
  lemma AtStartOnlyBeforeConsumption(a: seq<Expr>, inner: Expr, b: seq<Expr>, tables: Tables, line: seq<Unit>)
    requires Run(a, tables, NewReader(line)).Success? && Run(a, tables, NewReader(line)).value.matched
    ensures Run(a, tables, NewReader(line)).value.after.rest != line ==>
              PatternMatch(a + [AtStart(inner)] + b, tables, line) == Success(false)
    ensures Run(a, tables, NewReader(line)).value.after.rest == line ==>
              PatternMatch(a + [AtStart(inner)] + b, tables, line) == PatternMatch(a + [inner] + b, tables, line)
  {
    var c := NewReader(line);
    var d := Run(a, tables, c).value.after;
    RunAdvances(a, tables, c);
    OffsetCountsConsumption(line, d);
    assert a + [AtStart(inner)] + b == a + ([AtStart(inner)] + b);
    assert a + [inner] + b == a + ([inner] + b);
    RunAppend(a, [AtStart(inner)] + b, tables, c);
    RunAppend(a, [inner] + b, tables, c);
    assert ([AtStart(inner)] + b)[1..] == b;
    assert ([inner] + b)[1..] == b;
  }

  /**
   * The reference meaning of a pattern of classes and sets: each expression
   * accepts the rune at its own position.
   */
  predicate RunesAccepted(es: seq<Expr>, tables: Tables, input: seq<Unit>)
    requires forall i | 0 <= i < |es| :: SingleRune(es[i])
  {
    |es| <= |input| && forall i | 0 <= i < |es| :: TopRune(es[i], tables, input[i].rune) == Success(true)
  }

  /**
   * A pattern of classes and sets matches exactly when each expression
   * accepts the next rune in turn, and it then consumes exactly one rune
   * per expression. This needs that no expression accepts the zero rune,
   * which readRune returns at the end of the input.
   */
  lemma {:induction false} RunOfSingleRunes(es: seq<Expr>, tables: Tables, c: Cursor)
    requires c.Valid()
    requires forall i | 0 <= i < |es| :: SingleRune(es[i]) && TopRune(es[i], tables, '\0') != Success(true)
    ensures (Run(es, tables, c).Success? && Run(es, tables, c).value.matched) <==>
              RunesAccepted(es, tables, c.rest)
    ensures RunesAccepted(es, tables, c.rest) ==> Run(es, tables, c).value.after.rest == c.rest[|es|..]
    decreases |es|
  {
    if es != [] {
      SingleRuneMatch(es[0], tables, c);
      var m := Match(es[0], tables, c);
      if c.rest != [] && m.Success? && m.value.matched {
        var d := m.value.after;
        assert d.rest == c.rest[1..];
        RunOfSingleRunes(es[1..], tables, d);
        assert forall i | 0 <= i < |es| - 1 :: es[1..][i] == es[i + 1];
        assert forall i | 0 <= i < |d.rest| :: d.rest[i] == c.rest[i + 1];
        if RunesAccepted(es, tables, c.rest) {
          assert c.rest[1..][|es| - 1..] == c.rest[|es|..];
        }
      }
    }
  }

  /** A pattern of literal runes, one per rune of the text. */
  function Literals(s: string): (p: seq<Expr>)
    ensures |p| == |s|
    ensures forall i | 0 <= i < |s| :: p[i] == Base(Literal(s[i]))
  {
    seq(|s|, i requires 0 <= i < |s| => Base(Literal(s[i])))
  }

  /**
   * A pattern of literal runes never panics, and it matches exactly when
   * each literal equals the rune readRune returns at its position.
   */
  lemma {:induction false} LiteralRun(s: string, tables: Tables, c: Cursor)
    requires c.Valid()
    ensures Run(Literals(s), tables, c).Success?
    ensures Run(Literals(s), tables, c).value.matched <==> forall i | 0 <= i < |s| :: s[i] == RuneAt(c.rest, i)
    decreases |s|
  {
    if s != [] {
      var p := Literals(s);
      SingleRuneMatch(p[0], tables, c);
      MatchAdvances(p[0], tables, c);
      var m := Match(p[0], tables, c).value;
      if m.matched {
        var d := m.after;
        assert p[1..] == Literals(s[1..]);
        LiteralRun(s[1..], tables, d);
        assert forall i | 0 <= i < |s| - 1 :: RuneAt(d.rest, i) == RuneAt(c.rest, i + 1);
        assert (forall i | 0 <= i < |s| :: s[i] == RuneAt(c.rest, i)) <==>
               s[0] == RuneAt(c.rest, 0) && forall i | 0 <= i < |s| - 1 :: s[1..][i] == RuneAt(d.rest, i) by {
          if forall i | 0 <= i < |s| - 1 :: s[1..][i] == RuneAt(d.rest, i) {
            forall i | 1 <= i < |s| ensures s[i] == RuneAt(c.rest, i) {
              assert s[1..][i - 1] == RuneAt(d.rest, i - 1);
            }
          }
        }
      } else {
        assert s[0] != RuneAt(c.rest, 0);
      }
    }
  }

  /**
   * A literal pattern matches exactly when each of its runes equals the rune
   * readRune returns at that position, so a zero rune in it also matches
   * past the end of the line. Without a zero rune, it matches exactly the
   * lines that start with its text. It never panics.
   */
  lemma LiteralPrefixMatch(s: string, tables: Tables, line: seq<Unit>)
    ensures PatternMatch(Literals(s), tables, line) == Success(forall i | 0 <= i < |s| :: s[i] == RuneAt(line, i))
    ensures '\0' !in s ==>
              PatternMatch(Literals(s), tables, line) == Success(|s| <= |line| && s == RunesOf(line)[..|s|])
  {
    LiteralRun(s, tables, NewReader(line));
    if (forall i | 0 <= i < |s| :: s[i] == RuneAt(line, i)) && |s| > |line| {
      assert s[|line|] == '\0';
    }
    if '\0' !in s {
      if forall i | 0 <= i < |s| :: s[i] == RuneAt(line, i) {
        assert s == RunesOf(line)[..|s|];
      }
      if |s| <= |line| && s == RunesOf(line)[..|s|] {
        forall i | 0 <= i < |s| ensures s[i] == RuneAt(line, i) {
          assert s[i] == RunesOf(line)[..|s|][i];
        }
      }
    }
  }

}

=== FILE: pipeline.dfy ===
/**
 * Compiling and matching plain text: what NewPattern and Pattern.Match
 * together do with a pattern made only of ordinary runes.
 */
module Pipeline {
  import opened Runes
  import opened Results
  import opened Reader
  import opened Expressions
  import opened Compiler
  import opened Rendering
  import opened Patterns
  import opened Cli

  /**
   * Runes that stand for themselves in a pattern. NUL is excluded only so
   * that the literal pattern matches exactly the lines starting with the
   * text (`Patterns.LiteralPrefixMatch`); a line can hold NUL.
   */
  predicate PlainText(s: string) {
    forall i | 0 <= i < |s| :: s[i] !in {'[', '^', '$', '\\', '\0'}
  }

  lemma {:induction false} PlainTextRenders(s: string)
    ensures RenderAll(Literals(s)) == s
    decreases |s|
  {
    if s != [] {
      assert Literals(s)[1..] == Literals(s[1..]);
      PlainTextRenders(s[1..]);
      assert s == [s[0]] + s[1..];
    }
  }

  lemma PlainTextIsTopLevel(s: string)
    requires PlainText(s)
    ensures TopLevel(Literals(s))
  {
  }

  /**
   * Plain text is not a pattern NewPattern accepts: after its last rune
   * the reader is not yet done, and the next read yields an empty token.
   */
  lemma PlainTextPanics(s: string)
    requires PlainText(s)
    ensures NewPattern(s) == Failure(NotSingleRune(""))
  {
    PlainTextRenders(s);
    PlainTextIsTopLevel(s);
    CompletePatternPanics(Literals(s));
  }

  /**
   * Plain text followed by a lone `\` compiles to one literal per rune,
   * and the pattern then matches exactly the lines that start with that
   * text and the backslash.
   */
  lemma PlainTextWithBackslash(s: string, tables: Tables, line: seq<Unit>)
    requires PlainText(s)
    ensures NewPattern(s + "\\") == Success(Literals(s + "\\"))
    ensures PatternMatch(Literals(s + "\\"), tables, line) ==
              Success(|s| < |line| && s + "\\" == RunesOf(line)[..|s| + 1])
  {
    PlainTextRenders(s);
    PlainTextIsTopLevel(s);
    TrailingBackslashCompiles(Literals(s));
    assert Literals(s) + [Base(Literal('\\'))] == Literals(s + "\\");
    LiteralPrefixMatch(s + "\\", tables, line);
  }

  /** An empty set `[]` rejects every rune, so a pattern that ends in one matches no line. */
  lemma EmptySetNeverMatches(p: seq<Expr>, tables: Tables, line: seq<Unit>)
    ensures PatternMatch(p + [AnyOf([])], tables, line) != Success(true)
  {
    RunAppend(p, [AnyOf([])], tables, NewReader(line));
  }

  /**
   * Plain text followed by a trailing `[` compiles, to one literal per rune
   * and an empty set, and so matches no line at all.
   */
  lemma PlainTextWithBracket(s: string, tables: Tables, line: seq<Unit>)
    requires PlainText(s)
    ensures NewPattern(s + "[") == Success(Literals(s) + [AnyOf([])])
    ensures PatternMatch(NewPattern(s + "[").value, tables, line) != Success(true)
  {
    PlainTextRenders(s);
    PlainTextIsTopLevel(s);
    TrailingBracketCompiles(Literals(s));
    EmptySetNeverMatches(Literals(s), tables, line);
  }

  /**
   * A `$` right after `^` is not a top-level `$`: it compiles, as the nil
   * expression.
   */
  lemma AnchoredDollarCompiles()
    ensures NewPattern("^$[") == Success([AtStart(AtEndNil), AnyOf([])])
  {
    var p := [AtStart(AtEndNil)];
    assert TopLevel(p);
    TrailingBracketCompiles(p);
    assert RenderAll(p) == "^$" by {
      assert p[1..] == [];
      assert Render(p[0]) == "^$";
    }
    assert RenderAll(p) + "[" == "^$[";
    assert p + [AnyOf([])] == [AtStart(AtEndNil), AnyOf([])];
  }

  /** That compiled pattern reaches its nil `$` at the start of every line, and panics. */
  lemma AnchoredDollarPanicsWhenMatched(tables: Tables, line: seq<Unit>)
    ensures PatternMatch([AtStart(AtEndNil), AnyOf([])], tables, line) == Failure(NilExpression)
  {
    var c := NewReader(line);
    assert Match(AtStart(AtEndNil), tables, c) == Failure(NilExpression);
  }

  /**
   * The one-rune pattern `[` compiles, but to an empty set that matches no
   * line, while matchLine finds `[` in every line that holds one.
   */
  lemma LoneBracketDisagreesWithMatchLine(tables: Tables, line: seq<Unit>)
    ensures NewPattern("[") == Success([AnyOf([])])
    ensures PatternMatch([AnyOf([])], tables, line) != Success(true)
    ensures MatchLine(line, "[", tables).ok <==> exists i | 0 <= i < |line| :: line[i].rune == '['
  {
    PlainTextWithBracket("", tables, line);
    assert "" + "[" == "[";
    assert Literals("") + [AnyOf([])] == [AnyOf([])];
  }
}

=== FILE: reader.dfy ===
/**
 * The byte reader of internal/reader.go: a forward-only cursor over the
 * decoded input with a byte offset and a `done` flag that is set only when a
 * read fails for lack of input.
 */
module Reader {
  import opened Runes

  /** A byte value that is an ASCII character, as `test` is called with. */
  type AsciiByte = c: char | c as int < 0x80 witness '\0'

  /**
   * What the reader has left to read, the number of bytes it has counted as
   * consumed, and whether a read has failed.
   */
  datatype Cursor = Cursor(rest: seq<Unit>, offset: nat, done: bool) {

    /** A failed read means the input is exhausted. */
    predicate Valid() {
      done ==> rest == []
    }
  }

  function NewReader(input: seq<Unit>): Cursor {
    Cursor(input, 0, false)
  }

  /** `b` is what remains of `a` after a prefix of it was read. */
  predicate SuffixOf(b: seq<Unit>, a: seq<Unit>) {
    |b| <= |a| && a[|a| - |b|..] == b
  }

  lemma SuffixTransitive(a: seq<Unit>, b: seq<Unit>, c: seq<Unit>)
    requires SuffixOf(b, a) && SuffixOf(c, b)
    ensures SuffixOf(c, a)
  {
    assert a[|a| - |c|..] == b[|b| - |c|..];
  }

  /** The runes read in moving from `c` to `after`. */
  function Consumed(c: Cursor, after: Cursor): seq<Unit>
    requires SuffixOf(after.rest, c.rest)
  {
    c.rest[..|c.rest| - |after.rest|]
  }

  /** The result of readRune: the rune, its width, and the reader after the call. */
  datatype Peek = Peek(rune: char, width: nat, after: Cursor)

  /**
   * readRune: reads one rune and unreads it again, so the input and the
   * offset stay where they were; at the end of input it sets `done` and
   * returns the zero rune with width 0.
   */
  function ReadRune(c: Cursor): (p: Peek)
    ensures p.after.rest == c.rest && p.after.offset == c.offset
    ensures !c.done && c.rest != [] ==>
              p.rune == c.rest[0].rune && p.width == c.rest[0].width > 0 && p.after == c
    ensures c.done || c.rest == [] ==> p.rune == '\0' && p.width == 0 && p.after.done
    ensures c.done ==> p.after == c
  {
    if c.done then Peek('\0', 0, c)
    else if c.rest == [] then Peek('\0', 0, c.(done := true))
    else Peek(c.rest[0].rune, c.rest[0].width, c)
  }

  /** The result of test: whether the byte was consumed, and the reader after the call. */
  datatype Tested = Tested(hit: bool, after: Cursor)

  /**
   * test(t): reads one byte and keeps it consumed only when it equals `t`;
   * a failed read sets `done`. The offset is never touched.
   */
  function Test(c: Cursor, t: AsciiByte): (r: Tested)
    ensures r.hit <==> c.rest != [] && c.rest[0].rune == t
    ensures r.after.rest == if r.hit then c.rest[1..] else c.rest
    ensures r.after.offset == c.offset
    ensures r.after.done <==> c.done || c.rest == []
  {
    if c.rest == [] then Tested(false, c.(done := true))
    else if c.rest[0].rune == t then Tested(true, c.(rest := c.rest[1..]))
    else Tested(false, c)
  }

  /** The result of readToken: the token text and the reader after the call. */
  datatype Token = Token(text: string, after: Cursor)

  /**
   * The loop of readToken: reads one rune, and a second one when the first
   * is a backslash, adding each rune's width to the offset. A failed read
   * sets `done` and ends the token there.
   */
  function ScanToken(c: Cursor): (r: Token)
    ensures SuffixOf(r.after.rest, c.rest)
    ensures r.text == RunesOf(Consumed(c, r.after))
    ensures r.after.offset == c.offset + Bytes(Consumed(c, r.after))
  {
    if c.done then Token("", c)
    else if c.rest == [] then Token("", c.(done := true))
    else
      var first := c.rest[0];
      var c1 := c.(rest := c.rest[1..], offset := c.offset + first.width);
      if first.rune != '\\' || c1.rest == [] then
        var after := if first.rune == '\\' then c1.(done := true) else c1;
        ConsumedOne(c, after);
        Token([first.rune], after)
      else
        var second := c1.rest[0];
        var after := c1.(rest := c1.rest[1..], offset := c1.offset + second.width);
        ConsumedTwo(c, after);
        Token([first.rune, second.rune], after)
  }

  /** Moving past the first rune consumes exactly that rune and its bytes. */
  lemma ConsumedOne(c: Cursor, after: Cursor)
    requires c.rest != [] && after.rest == c.rest[1..] && after.offset == c.offset + c.rest[0].width
    ensures SuffixOf(after.rest, c.rest)
    ensures RunesOf(Consumed(c, after)) == [c.rest[0].rune]
    ensures after.offset == c.offset + Bytes(Consumed(c, after))
  {
    assert Consumed(c, after) == [c.rest[0]];
    assert Bytes([c.rest[0]]) == c.rest[0].width + Bytes([]);
  }

  /** Moving past the first two runes consumes exactly those runes and their bytes. */
  lemma ConsumedTwo(c: Cursor, after: Cursor)
    requires |c.rest| >= 2 && after.rest == c.rest[2..]
    requires after.offset == c.offset + c.rest[0].width + c.rest[1].width
    ensures SuffixOf(after.rest, c.rest)
    ensures RunesOf(Consumed(c, after)) == [c.rest[0].rune, c.rest[1].rune]
    ensures after.offset == c.offset + Bytes(Consumed(c, after))
  {
    var first, second := c.rest[0], c.rest[1];
    assert Consumed(c, after) == [first, second];
    assert [first, second][1..] == [second];
    assert Bytes([second]) == second.width + Bytes([]);
  }

  /**
   * readToken: one rune, or a backslash and the rune after it; the token
   * `[` becomes `[^` when the next byte is `^`, which is then consumed
   * without being counted in the offset. A reader that is already done
   * returns the empty token and stays as it is.
   */
  function ReadToken(c: Cursor): (r: Token)
    ensures SuffixOf(r.after.rest, c.rest)
    ensures r.text == RunesOf(Consumed(c, r.after))
    ensures r.text != "" <==> !c.done && c.rest != []
    ensures c.done ==> r.after == c
    ensures |r.text| <= 2
    ensures |r.text| == 2 ==> r.text[0] == '\\' || r.text == "[^"
    ensures |r.text| == 1 && r.text[0] == '\\' ==> r.after.rest == []
    ensures r.text == "[" ==> r.after.rest == [] || r.after.rest[0].rune != '^'
    ensures r.after.offset == c.offset + Bytes(Consumed(c, r.after)) - (if r.text == "[^" then 1 else 0)
    ensures r.after.done <==> c.done || (r.after.rest == [] && r.text in {"", "\\", "["})
  {
    var s := ScanToken(c);
    if s.text == "[" then
      var h := Test(s.after, '^');
      var r := Token(if h.hit then "[^" else "[", h.after);
      if h.hit then (
        var n := |c.rest|;
        var x := s.after.rest[0];
        assert Consumed(c, r.after) == Consumed(c, s.after) + [x] by {
          assert c.rest[n - |s.after.rest|..] == s.after.rest;
          assert c.rest[..n - |r.after.rest|] == c.rest[..n - |s.after.rest|] + [c.rest[n - |s.after.rest|]];
        }
        assert Bytes([x]) == 1 by {
          assert x.width == 1;
          assert Bytes([x]) == x.width + Bytes([]);
        }
        BytesAppend(Consumed(c, s.after), [x]);
        r
      ) else r
    else s
  }

  /** The largest number of leading runes of `s` that fit in `n` bytes. */
  function Fit(s: seq<Unit>, n: nat): (k: nat)
    ensures k <= |s|
    ensures Bytes(s[..k]) <= n
    ensures k < |s| ==> Bytes(s[..k + 1]) > n
  {
    if s == [] || s[0].width > n then
      assert s != [] ==> s[..1][1..] == [];
      0
    else
      var k := Fit(s[1..], n - s[0].width);
      assert s[..k + 1][1..] == s[1..][..k];
      assert k + 1 < |s| ==> s[..k + 2][1..] == s[1..][..k + 1];
      k + 1
  }

  /**
   * discard(n): skips up to `n` bytes and adds the number skipped to the
   * offset; asking for more bytes than remain sets `done`. A reader that is
   * already done is left unchanged.
   */
  function Discard(c: Cursor, n: nat): (after: Cursor)
    ensures c.done ==> after == c
    ensures !c.done ==> SuffixOf(after.rest, c.rest)
    ensures !c.done ==> after.offset == c.offset + Bytes(Consumed(c, after))
    ensures !c.done ==> Bytes(Consumed(c, after)) <= n
    ensures !c.done && after.rest != [] ==> Bytes(Consumed(c, after)) + after.rest[0].width > n
    ensures !c.done ==> (after.done <==> Bytes(c.rest) < n)
  {
    if c.done then c
    else
      var k := Fit(c.rest, n);
      var after := Cursor(c.rest[k..], c.offset + Bytes(c.rest[..k]), Bytes(c.rest) < n);
      assert Consumed(c, after) == c.rest[..k];
      assert after.rest != [] ==> c.rest[..k + 1] == c.rest[..k] + [after.rest[0]];
      if after.rest != [] then
        BytesAppend(c.rest[..k], [after.rest[0]]);
        after
      else
        after
  }

  /** Discarding the width of the rune just peeked consumes exactly that rune. */
  lemma DiscardPeeked(c: Cursor)
    requires !c.done && c.rest != []
    ensures Discard(c, ReadRune(c).width) == Cursor(c.rest[1..], c.offset + c.rest[0].width, false)
  {
    var w := c.rest[0].width;
    assert Fit(c.rest[1..], 0) == 0;
    assert Fit(c.rest, w) == 1;
    assert c.rest[..1] == [c.rest[0]];
    assert Bytes([c.rest[0]]) == w + Bytes([]);
    assert Bytes(c.rest) >= w by {
      assert c.rest == [c.rest[0]] + c.rest[1..];
      BytesAppend([c.rest[0]], c.rest[1..]);
    }
  }

  /**
   * Reading a rune, discarding and testing keep `done` only on an exhausted
   * input, and keep `offset + Bytes(rest)` fixed, except that a byte
   * consumed by `test` is not counted in the offset.
   */
  lemma ReadRuneKeepsInvariant(c: Cursor)
    requires c.Valid()
    ensures ReadRune(c).after.Valid()
    ensures Bytes(ReadRune(c).after.rest) + ReadRune(c).after.offset == Bytes(c.rest) + c.offset
  {
  }

  lemma {:induction false} DiscardKeepsInvariant(c: Cursor, n: nat)
    requires c.Valid()
    ensures Discard(c, n).Valid()
    ensures Bytes(Discard(c, n).rest) + Discard(c, n).offset == Bytes(c.rest) + c.offset
  {
    var d := Discard(c, n);
    if !c.done {
      assert c.rest == Consumed(c, d) + d.rest;
      BytesAppend(Consumed(c, d), d.rest);
    }
  }

  lemma TestKeepsInvariant(c: Cursor, t: AsciiByte)
    requires c.Valid()
    ensures Test(c, t).after.Valid()
    ensures Bytes(Test(c, t).after.rest) + Test(c, t).after.offset
              == Bytes(c.rest) + c.offset - (if Test(c, t).hit then 1 else 0)
  {
  }

  lemma ReadTokenKeepsInvariant(c: Cursor)
    requires c.Valid()
    ensures ReadToken(c).after.Valid()
    ensures Bytes(ReadToken(c).after.rest) + ReadToken(c).after.offset
              == Bytes(c.rest) + c.offset - (if ReadToken(c).text == "[^" then 1 else 0)
  {
    var tk := ReadToken(c);
    assert c.rest == Consumed(c, tk.after) + tk.after.rest;
    BytesAppend(Consumed(c, tk.after), tk.after.rest);
  }
}

=== FILE: rendering.dfy ===
/**
 * Writing expressions back as pattern text, and what the compiler makes of
 * that text: NewMatchExpression reads back every expression that can be
 * written, and NewPattern's loop decides the fate of the whole pattern by
 * how its last token is read.
 */
module Rendering {
  import opened Runes
  import opened Results
  import opened Reader
  import opened Expressions
  import opened Compiler

  /** The pattern text of an expression. */
  function Render(e: Expr): string
    decreases e
  {
    match e
    case Base(k) => ClassToken(k)
    case AnyOf(ms) => AnyOfSymbol + RenderAll(ms) + "]"
    case NoneOf(ms) => NoneOfSymbol + RenderAll(ms) + "]"
    case AtStart(inner) => AtStartSymbol + Render(inner)
    case AtEnd(inner) => Render(inner) + AtEndSymbol
    case AtEndNil => AtEndSymbol
  }

  function RenderAll(ms: seq<Expr>): string
    decreases ms
  {
    if ms == [] then "" else Render(ms[0]) + RenderAll(ms[1..])
  }

  /**
   * The expressions whose text reads back as themselves: a literal must not
   * be one of the runes that start another token (`[`, `^`, `$`, `\`) nor,
   * directly inside a set, the `]` that closes it; a `[...]` set must not
   * start with `^`; and `$` never wraps anything.
   */
  predicate Renderable(e: Expr, inSet: bool)
    decreases e
  {
    match e
    case Base(k) => k.Literal? ==> k.rune !in {'[', '^', '$', '\\'} && !(inSet && k.rune == ']')
    case AnyOf(ms) => AllRenderable(ms) && (ms == [] || !ms[0].AtStart?)
    case NoneOf(ms) => AllRenderable(ms)
    case AtStart(inner) => Renderable(inner, false)
    case AtEnd(_) => false
    case AtEndNil => true
  }

  predicate AllRenderable(ms: seq<Expr>)
    decreases ms
  {
    forall i | 0 <= i < |ms| :: Renderable(ms[i], true)
  }

  /** The expressions a pattern can hold at its top level: no bare `$`. */
  predicate TopLevel(p: seq<Expr>) {
    forall i | 0 <= i < |p| :: Renderable(p[i], false) && !p[i].AtEndNil?
  }

  /** An expression's text as the reader decodes it. */
  function Write(e: Expr): seq<Unit>
    decreases e
  {
    match e
    case Base(k) => WriteClass(k)
    case AnyOf(ms) => [ToUnit('[')] + WriteAll(ms) + [ToUnit(']')]
    case NoneOf(ms) => [ToUnit('['), ToUnit('^')] + WriteAll(ms) + [ToUnit(']')]
    case AtStart(inner) => [ToUnit('^')] + Write(inner)
    case AtEnd(inner) => Write(inner) + [ToUnit('$')]
    case AtEndNil => [ToUnit('$')]
  }

  function WriteClass(k: Class): seq<Unit> {
    match k
    case Number => [ToUnit('\\'), ToUnit('d')]
    case Word => [ToUnit('\\'), ToUnit('w')]
    case Literal(r) => [ToUnit(r)]
  }

  function WriteAll(ms: seq<Expr>): seq<Unit>
    decreases ms
  {
    if ms == [] then [] else Write(ms[0]) + WriteAll(ms[1..])
  }

  lemma {:induction false} EncodeRender(e: Expr)
    ensures Encode(Render(e)) == Write(e)
    decreases e, 1
  {
    match e
    case Base(k) =>
    case AnyOf(ms) =>
      EncodeRenderAll(ms);
      EncodeAppend("[" + RenderAll(ms), "]");
      EncodeAppend("[", RenderAll(ms));
    case NoneOf(ms) =>
      EncodeRenderAll(ms);
      EncodeAppend("[^" + RenderAll(ms), "]");
      EncodeAppend("[^", RenderAll(ms));
    case AtStart(inner) =>
      EncodeRender(inner);
      EncodeAppend("^", Render(inner));
    case AtEnd(inner) =>
      EncodeRender(inner);
      EncodeAppend(Render(inner), "$");
    case AtEndNil =>
  }

  lemma {:induction false} EncodeRenderAll(ms: seq<Expr>)
    ensures Encode(RenderAll(ms)) == WriteAll(ms)
    decreases ms, 0
  {
    if ms != [] {
      EncodeRender(ms[0]);
      EncodeRenderAll(ms[1..]);
      EncodeAppend(Render(ms[0]), RenderAll(ms[1..]));
    }
  }

  /** The first rune of an expression's text tells which token starts it. */
  lemma WriteHead(e: Expr, inSet: bool)
    requires Renderable(e, inSet)
    ensures |Write(e)| >= 1
    ensures Write(e)[0].rune == '^' <==> e.AtStart?
    ensures inSet ==> Write(e)[0].rune != ']'
  {
  }

  lemma ReadLiteral(c: Cursor, ch: char, tail: seq<Unit>)
    requires !c.done && c.rest == [ToUnit(ch)] + tail && ch != '\\' && ch != '['
    ensures ReadToken(c).text == [ch]
    ensures ReadToken(c).after.rest == tail && !ReadToken(c).after.done
  {
    assert c.rest[1..] == tail;
  }

  lemma ReadEscape(c: Cursor, ch: char, tail: seq<Unit>)
    requires !c.done && c.rest == [ToUnit('\\'), ToUnit(ch)] + tail
    ensures ReadToken(c).text == ['\\', ch]
    ensures ReadToken(c).after.rest == tail && !ReadToken(c).after.done
  {
    assert c.rest[1..][1..] == tail;
  }

  lemma ReadBracket(c: Cursor, tail: seq<Unit>)
    requires !c.done && c.rest == [ToUnit('[')] + tail
    ensures ReadToken(c).text == if tail != [] && tail[0].rune == '^' then NoneOfSymbol else AnyOfSymbol
    ensures ReadToken(c).after.rest == if tail != [] && tail[0].rune == '^' then tail[1..] else tail
    ensures ReadToken(c).after.done <==> tail == []
  {
    assert c.rest[1..] == tail;
  }

  lemma AllRenderableTail(ms: seq<Expr>)
    requires AllRenderable(ms) && ms != []
    ensures AllRenderable(ms[1..])
  {
    assert forall i | 0 <= i < |ms[1..]| :: ms[1..][i] == ms[i + 1];
  }

  lemma TopLevelTail(p: seq<Expr>)
    requires TopLevel(p) && p != []
    ensures TopLevel(p[1..])
  {
    assert forall i | 0 <= i < |p[1..]| :: p[1..][i] == p[i + 1];
  }

  lemma ConsSplit(acc: seq<Expr>, ms: seq<Expr>)
    requires ms != []
    ensures acc + [ms[0]] + ms[1..] == acc + ms
  {
  }

  /** NewMatchExpression on `c` yields `e` and leaves exactly `tail`, not done. */
  predicate ReadsBack(c: Cursor, e: Expr, tail: seq<Unit>) {
    var r := NewMatchExpression(c);
    r.Success? && r.value.expr == e && r.value.after.rest == tail && !r.value.after.done
  }

  /**
   * Round trip: NewMatchExpression reads the text of any expression that can
   * be written back as exactly that expression, stopping right after its
   * text without setting `done`.
   */
  lemma {:induction false} NewMatchExpressionReadsWrite(e: Expr, inSet: bool, c: Cursor, tail: seq<Unit>)
    requires Renderable(e, inSet) && !c.done && c.rest == Write(e) + tail
    ensures ReadsBack(c, e, tail)
    decreases e, 0
  {
    match e
    case Base(k) =>
      if k.Literal? {
        ReadLiteral(c, k.rune, tail);
      } else {
        ReadEscape(c, if k.Number? then 'd' else 'w', tail);
      }
    case AnyOf(ms) => AnyOfReadsWrite(ms, c, tail);
    case NoneOf(ms) => NoneOfReadsWrite(ms, c, tail);
    case AtStart(inner) => AtStartReadsWrite(inner, c, tail);
    case AtEndNil => ReadLiteral(c, '$', tail);
  }

  lemma {:induction false} AnyOfReadsWrite(ms: seq<Expr>, c: Cursor, tail: seq<Unit>)
    requires Renderable(AnyOf(ms), false) && !c.done && c.rest == Write(AnyOf(ms)) + tail
    ensures ReadsBack(c, AnyOf(ms), tail)
    decreases ms, 2
  {
    var body := WriteAll(ms) + [ToUnit(']')] + tail;
    assert c.rest == [ToUnit('[')] + body;
    assert body[0].rune != '^' by {
      if ms != [] {
        WriteHead(ms[0], true);
        assert body[0] == Write(ms[0])[0];
      }
    }
    ReadBracket(c, body);
    AnyOfDispatch(c);
    SetBodyReadsBack(ms, ReadToken(c).after, tail);
  }

  lemma {:induction false} NoneOfReadsWrite(ms: seq<Expr>, c: Cursor, tail: seq<Unit>)
    requires Renderable(NoneOf(ms), false) && !c.done && c.rest == Write(NoneOf(ms)) + tail
    ensures ReadsBack(c, NoneOf(ms), tail)
    decreases ms, 2
  {
    var body := WriteAll(ms) + [ToUnit(']')] + tail;
    assert c.rest == [ToUnit('[')] + ([ToUnit('^')] + body);
    assert ([ToUnit('^')] + body)[1..] == body;
    ReadBracket(c, [ToUnit('^')] + body);
    NoneOfDispatch(c);
    SetBodyReadsBack(ms, ReadToken(c).after, tail);
  }

  /** After `[` or `[^`, the members and the closing `]` are read back as the set's members. */
  lemma {:induction false} SetBodyReadsBack(ms: seq<Expr>, d: Cursor, tail: seq<Unit>)
    requires AllRenderable(ms) && !d.done && d.rest == WriteAll(ms) + [ToUnit(']')] + tail
    ensures SetMembers(d, []).Success?
    ensures SetMembers(d, []).value.after.rest == tail && !SetMembers(d, []).value.after.done
    ensures NewAnyOfExpression(d) == Success(Parsed(AnyOf(ms), SetMembers(d, []).value.after))
    ensures NewNoneOfExpression(d) == Success(Parsed(NoneOf(ms), SetMembers(d, []).value.after))
    decreases ms, 1
  {
    SetMembersReadWrite(ms, d, [], tail);
    assert [] + ms == ms;
  }

  lemma {:induction false} AtStartReadsWrite(inner: Expr, c: Cursor, tail: seq<Unit>)
    requires Renderable(inner, false) && !c.done && c.rest == Write(AtStart(inner)) + tail
    ensures ReadsBack(c, AtStart(inner), tail)
    decreases inner, 1
  {
    assert c.rest == [ToUnit('^')] + (Write(inner) + tail);
    ReadLiteral(c, '^', Write(inner) + tail);
    var tok := ReadToken(c);
    NewMatchExpressionReadsWrite(inner, false, tok.after, tail);
    AtStartDispatch(c);
  }

  /** The set loop reads the members' texts back, up to and including the closing `]`. */
  lemma {:induction false} SetMembersReadWrite(ms: seq<Expr>, c: Cursor, acc: seq<Expr>, tail: seq<Unit>)
    requires AllRenderable(ms) && !c.done && c.rest == WriteAll(ms) + [ToUnit(']')] + tail
    ensures SetMembers(c, acc).Success?
    ensures SetMembers(c, acc).value.members == acc + ms
    ensures SetMembers(c, acc).value.after.rest == tail && !SetMembers(c, acc).value.after.done
    decreases ms, 0
  {
    if ms == [] {
      assert c.rest == [ToUnit(']')] + tail;
      assert c.rest[1..] == tail;
      assert acc + ms == acc;
    } else {
      var rest := WriteAll(ms[1..]) + [ToUnit(']')] + tail;
      assert c.rest == Write(ms[0]) + rest;
      WriteHead(ms[0], true);
      SetMembersStep(c, acc);
      NewMatchExpressionReadsWrite(ms[0], true, c, rest);
      var p := NewMatchExpression(c).value;
      AllRenderableTail(ms);
      SetMembersReadWrite(ms[1..], p.after, acc + [ms[0]], tail);
      ConsSplit(acc, ms);
    }
  }

  /**
   * NewPattern's loop reads the text of a top-level expression list back as
   * that list, arriving at the rest of the pattern with `done` unset.
   */
  lemma {:induction false} CompileReadsWrite(p: seq<Expr>, c: Cursor, acc: seq<Expr>, tail: seq<Unit>)
    requires TopLevel(p) && !c.done && c.rest == WriteAll(p) + tail
    ensures exists d: Cursor :: d.rest == tail && !d.done && Compile(c, acc) == Compile(d, acc + p)
    decreases p
  {
    if p == [] {
      assert c.rest == tail && acc + p == acc;
      assert Compile(c, acc) == Compile(c, acc + p);
    } else {
      var rest := WriteAll(p[1..]) + tail;
      assert c.rest == Write(p[0]) + rest;
      NewMatchExpressionReadsWrite(p[0], false, c, rest);
      var q := NewMatchExpression(c).value;
      CompileStep(c, acc);
      TopLevelTail(p);
      CompileReadsWrite(p[1..], q.after, acc + [p[0]], tail);
      ConsSplit(acc, p);
    }
  }

  /** The decoded text of a pattern written out, followed by more text. */
  lemma PatternText(p: seq<Expr>, suffix: string)
    ensures Encode(RenderAll(p) + suffix) == WriteAll(p) + Encode(suffix)
  {
    EncodeAppend(RenderAll(p), suffix);
    EncodeRenderAll(p);
  }

  lemma PatternReadsWrite(p: seq<Expr>, tail: seq<Unit>)
    requires TopLevel(p)
    ensures exists d: Cursor :: d.rest == tail && !d.done && Compile(NewReader(WriteAll(p) + tail), []) == Compile(d, p)
  {
    var c := NewReader(WriteAll(p) + tail);
    CompileReadsWrite(p, c, [], tail);
    EmptyPrefix(p);
  }

  lemma EmptyPrefix(p: seq<Expr>)
    ensures [] + p == p
  {
  }

  /** What NewPattern's loop does with the text that follows a written-out pattern. */
  lemma CompileAtEnd(d: Cursor, acc: seq<Expr>)
    requires !d.done && d.rest == []
    ensures Compile(d, acc) == Failure(NotSingleRune(""))
  {
  }

  lemma CompileTrailingBracket(d: Cursor, acc: seq<Expr>)
    requires !d.done && d.rest == [ToUnit('[')]
    ensures Compile(d, acc) == Success(acc + [AnyOf([])])
  {
    ReadBracket(d, []);
    var after := ReadToken(d).after;
    assert after.done;
    assert SetMembers(after, []) == Success(Members([], after));
    assert NewMatchExpression(d) == Success(Parsed(AnyOf([]), after));
    CompileStep(d, acc);
  }

  lemma CompileTrailingBackslash(d: Cursor, acc: seq<Expr>)
    requires !d.done && d.rest == [ToUnit('\\')]
    ensures Compile(d, acc) == Success(acc + [Base(Literal('\\'))])
  {
  }

  lemma CompileDollar(d: Cursor, acc: seq<Expr>, tail: seq<Unit>)
    requires !d.done && d.rest == [ToUnit('$')] + tail
    ensures Compile(d, acc) == Failure(IndexOutOfRange(|acc|, |acc|))
  {
    ReadLiteral(d, '$', tail);
  }

  lemma CompileBadEscape(d: Cursor, acc: seq<Expr>, ch: char, tail: seq<Unit>)
    requires !d.done && d.rest == [ToUnit('\\'), ToUnit(ch)] + tail && ch != 'd' && ch != 'w'
    ensures Compile(d, acc) == Failure(NotSingleRune(['\\', ch]))
  {
    ReadEscape(d, ch, tail);
  }

  /**
   * A written top-level pattern never compiles on its own: after it, the
   * reader is not done, so NewPattern reads once more, gets the empty token
   * and panics in NewCharacterClass. This includes the empty pattern.
   */
  lemma CompletePatternPanics(p: seq<Expr>)
    requires TopLevel(p)
    ensures NewPattern(RenderAll(p)) == Failure(NotSingleRune(""))
  {
    PatternText(p, "");
    assert RenderAll(p) + "" == RenderAll(p);
    PatternReadsWrite(p, []);
    var d: Cursor :| d.rest == [] && !d.done && Compile(NewReader(WriteAll(p) + []), []) == Compile(d, p);
    CompileAtEnd(d, p);
  }

  /**
   * After any written top-level pattern, a trailing `[` finds no `^`, sets
   * `done`, and compiles to an empty set.
   */
  lemma TrailingBracketCompiles(p: seq<Expr>)
    requires TopLevel(p)
    ensures NewPattern(RenderAll(p) + "[") == Success(p + [AnyOf([])])
  {
    PatternText(p, "[");
    PatternReadsWrite(p, Encode("["));
    var d: Cursor :| d.rest == Encode("[") && !d.done && Compile(NewReader(WriteAll(p) + Encode("[")), []) == Compile(d, p);
    CompileTrailingBracket(d, p);
  }

  /**
   * After any written top-level pattern, a trailing lone `\` sets `done`
   * and compiles to the literal backslash.
   */
  lemma TrailingBackslashCompiles(p: seq<Expr>)
    requires TopLevel(p)
    ensures NewPattern(RenderAll(p) + "\\") == Success(p + [Base(Literal('\\'))])
  {
    PatternText(p, "\\");
    PatternReadsWrite(p, Encode("\\"));
    var d: Cursor :| d.rest == Encode("\\") && !d.done && Compile(NewReader(WriteAll(p) + Encode("\\")), []) == Compile(d, p);
    CompileTrailingBackslash(d, p);
  }

  lemma DollarText(p: seq<Expr>, suffix: string)
    ensures Encode(RenderAll(p) + "$" + suffix) == WriteAll(p) + ([ToUnit('$')] + Encode(suffix))
  {
    assert RenderAll(p) + "$" + suffix == RenderAll(p) + ("$" + suffix);
    PatternText(p, "$" + suffix);
    EncodeAppend("$", suffix);
  }

  /**
   * A `$` after any written top-level pattern panics, in Pattern.Last,
   * whatever text follows it.
   */
  lemma DollarPanics(p: seq<Expr>, suffix: string)
    requires TopLevel(p)
    ensures NewPattern(RenderAll(p) + "$" + suffix) == Failure(IndexOutOfRange(|p|, |p|))
  {
    DollarText(p, suffix);
    var tail := [ToUnit('$')] + Encode(suffix);
    PatternReadsWrite(p, tail);
    var d: Cursor :| d.rest == tail && !d.done && Compile(NewReader(WriteAll(p) + tail), []) == Compile(d, p);
    CompileDollar(d, p, Encode(suffix));
  }

  lemma BadEscapeText(p: seq<Expr>, ch: char, suffix: string)
    ensures Encode(RenderAll(p) + ['\\', ch] + suffix) == WriteAll(p) + ([ToUnit('\\'), ToUnit(ch)] + Encode(suffix))
  {
    var escape := ['\\', ch];
    assert RenderAll(p) + escape + suffix == RenderAll(p) + (escape + suffix);
    PatternText(p, escape + suffix);
    EncodeAppend(escape, suffix);
    assert Encode(escape) == [ToUnit('\\'), ToUnit(ch)];
  }

  /**
   * A backslash before anything but `d` or `w` reads as a two-rune token,
   * which NewCharacterClass rejects: `\.` or `\\` after any written top-level
   * pattern panics, whatever text follows it.
   */
  lemma BadEscapePanics(p: seq<Expr>, ch: char, suffix: string)
    requires TopLevel(p) && ch != 'd' && ch != 'w'
    ensures NewPattern(RenderAll(p) + ['\\', ch] + suffix) == Failure(NotSingleRune(['\\', ch]))
  {
    BadEscapeText(p, ch, suffix);
    var tail := [ToUnit('\\'), ToUnit(ch)] + Encode(suffix);
    PatternReadsWrite(p, tail);
    var d: Cursor :| d.rest == tail && !d.done && Compile(NewReader(WriteAll(p) + tail), []) == Compile(d, p);
    CompileBadEscape(d, p, ch, Encode(suffix));
  }
}

=== FILE: results.dfy ===
/**
 * Go panics of the modelled code, and a result type that carries them.
 */
module Results {

  /** The run-time panics the modelled code can raise. */
  datatype Panic =
    /** NewCharacterClass on a token that is not exactly one rune. */
    | NotSingleRune(token: string)
    /** A slice index outside 0 .. length-1 (Pattern.Last). */
    | IndexOutOfRange(index: int, length: int)
    /** A method call on the nil expression embedded in a bare `$`. */
    | NilExpression

  /** Either a value or the panic that ended the computation. */
  datatype Result<+T> = Success(value: T) | Failure(panic: Panic) {

    predicate IsFailure() {
      Failure?
    }

    function PropagateFailure<U>(): Result<U>
      requires Failure?
    {
      Failure(panic)
    }

    function Extract(): T
      requires Success?
    {
      value
    }
  }

  /** A value that may be absent, as a nil Go error is. */
  datatype Option<+T> = None | Some(value: T)
}

=== FILE: runes.dfy ===
/**
 * Runes as the pattern compiler and the matcher read them.
 *
 * Both readers sit on a bufio.Reader and decode UTF-8 with ReadRune. The
 * model keeps the decoded runes together with the number of bytes each one
 * took, which is all the matcher needs to keep its byte offset; the UTF-8
 * decoder itself is not modelled.
 */
module Runes {

  /** The number of bytes one UTF-8 encoded rune occupies. */
  type Width = w: nat | 1 <= w <= 4 witness 1

  /** A rune as ReadRune returns it: the rune and its size in bytes. */
  datatype Decoded = Decoded(rune: char, width: Width)

  /**
   * An ASCII rune is always a single byte. (A byte that is not valid UTF-8
   * decodes as U+FFFD with width 1, which this allows.)
   */
  type Unit = u: Decoded | u.rune as int < 0x80 ==> u.width == 1 witness Decoded('\0', 1)

  /**
   * The Unicode classification tables the classes consult: unicode.IsNumber,
   * unicode.IsDigit and unicode.IsLetter. They are parameters of the model.
   */
  datatype Tables = Tables(isNumber: char -> bool, isDigit: char -> bool, isLetter: char -> bool)

  /** The UTF-8 length of a Unicode scalar value (utf8.RuneLen). */
  function Utf8Len(c: char): (w: Width)
    ensures c as int < 0x80 <==> w == 1
  {
    if c as int < 0x80 then 1
    else if c as int < 0x800 then 2
    else if c as int < 0x10000 then 3
    else 4
  }

  function ToUnit(c: char): Unit {
    Decoded(c, Utf8Len(c))
  }

  /** How a valid UTF-8 string decodes, rune by rune. */
  function Encode(s: string): (u: seq<Unit>)
    ensures |u| == |s|
    ensures forall i | 0 <= i < |s| :: u[i] == ToUnit(s[i])
  {
    seq(|s|, i requires 0 <= i < |s| => ToUnit(s[i]))
  }

  /** The runes of a decoded input, without their widths. */
  function RunesOf(s: seq<Unit>): (r: string)
    ensures |r| == |s|
    ensures forall i | 0 <= i < |s| :: r[i] == s[i].rune
  {
    seq(|s|, i requires 0 <= i < |s| => s[i].rune)
  }

  /** The number of bytes a decoded input occupies. */
  function Bytes(s: seq<Unit>): nat {
    if s == [] then 0 else s[0].width + Bytes(s[1..])
  }

  lemma EncodeAppend(a: string, b: string)
    ensures Encode(a + b) == Encode(a) + Encode(b)
  {
    assert forall i | 0 <= i < |a + b| :: Encode(a + b)[i] == (Encode(a) + Encode(b))[i];
  }

  lemma {:induction false} BytesAppend(a: seq<Unit>, b: seq<Unit>)
    ensures Bytes(a + b) == Bytes(a) + Bytes(b)
  {
    if a == [] {
      assert a + b == b;
    } else {
      assert (a + b)[1..] == a[1..] + b;
      BytesAppend(a[1..], b);
    }
  }

  /** Every rune takes at least one byte. */
  lemma {:induction false} BytesAtLeastLength(s: seq<Unit>)
    ensures Bytes(s) >= |s|
  {
    if s != [] {
      BytesAtLeastLength(s[1..]);
    }
  }
}
